=== FILE: README.md ===
# Binary-protocol value codec of a MariaDB/MySQL client

This project models the shared core of the driver's binary (prepared
statement) commands, `lib/cmd/common-binary-cmd.js`, in Dafny. It proves
properties of that model. The core has three parts.

- **Parameter serialisation** (`writeParam`). One bound parameter becomes
  a marker byte and a payload. The marker is 0x00 when a value follows and
  0x01 for SQL NULL. The payload is chosen by the JavaScript type of the
  value. For objects the branches are tried in a fixed order: Date,
  Buffer, `toSqlString`, GeoJSON-like geometry, then JSON.
- **Geometry encoding** (`getBufferFromGeometryValue`). A GeoJSON-like
  object becomes little-endian Well-Known Binary (WKB). This is the layout
  of section 8.2 of OGC Simple Features Access Part 1 (ISO 19125-1). The
  encoder answers `null` for coordinates it cannot encode.
  - A Multi* value or a GeometryCollection keeps the elements that encode
    up to the first one that does not. Its count field says how many it
    kept.
- **Row decoding** (`readRowData` and the three row builders).
  - One column of a binary result row is read as NULL or by a typed read,
    depending on its type code.
  - A row is built as an array, as a table-nested object, or as a flat
    object.
  - The flat builder first skips a header byte and reads the null bitmap.

Modules, in dependency order:

| file | module | contents |
|---|---|---|
| `bytes.dfy` | `Bytes` | bytes, 32-bit little-endian integers, offset writes, concatenation |
| `js.dfy` | `Js` | `Option`, `Result` (a value or a thrown exception), JavaScript values as the encoder observes them |
| `geometry.dfy` | `Geometry` | the WKB layout as a pure function `Encode` |
| `geometry_lemmas.dfy` | `GeometryLemmas` | properties of `Encode` |
| `geometry_buffer.dfy` | `GeometryBuffer` | the encoder as the source writes it: an uninitialised buffer of a precomputed size, filled at offsets; proved equal to `Encode` |
| `params.dfy` | `Params` | `writeParam` over an append-only log of writer calls |
| `rows.dfy` | `Rows` | `readRowData`, the null bitmap, SET splitting, `readCastValue` |
| `row_shapes.dfy` | `RowShapes` | `parseRow`, `parseRowAsArray`, `parseRowNested`, `parseRowStd` |

JavaScript runtime faults are a result in the model (`Thrown` or
`Throws`), not a precondition. They are:
- a count above 2^31-1 given to `writeInt32LE`;
- a Polygon ring that is not an array;
- a `null` parameter, which line 41 dereferences;
- a missing null bitmap in `readRowData`.

Two behaviours of `readRowData` are modelled as the code has them.
- Line 386 tests the null bitmap at an index that differs from the
  protocol's rule (see Findings). The test as written is what `ReadRowData`
  uses. The protocol's rule is modelled next to it as `NullBit`.
- Line 386 indexes `nullBuf` unconditionally, so `readRowData` throws when
  no bitmap is passed.

The packet reader, the output writer and the `_getValue` hook of the
subclasses are not part of this model. They appear as parameters:
- a flush oracle for the writer;
- opaque read tokens for typed reads;
- an abstract cell getter that advances the packet position.
`lib/const/field-type.js` and `lib/const/field-detail.js` are not part of
this model either. Their type codes and flag bits are those of the
MySQL/MariaDB client/server protocol. They are written as constants in
`rows.dfy`.

## Model

| member | source | states |
|---|---|---|
| Bytes.LE32 | lib/cmd/common-binary-cmd.js:108-110 | a count up to 2^31-1 takes four bytes, least significant first, that read back as the same count |
| Bytes.WriteAt | lib/cmd/common-binary-cmd.js:97-98 | a write at an offset places its bytes there and leaves every other byte of the buffer unchanged |
| Bytes.Concat | lib/cmd/common-binary-cmd.js:201-204 | `Buffer.concat` is exactly as long as all parts together, and a single part is returned as it is |
| Bytes.ConcatAppend | lib/cmd/common-binary-cmd.js:201-204 | concatenating one more buffer appends its bytes at the end |
| Geometry.TypeCode | lib/cmd/common-binary-cmd.js:89 | the WKB type code of every geometry kind is between 1 and 7 |
| Geometry.IsPoint | lib/cmd/common-binary-cmd.js:90-96 | definition of the point test; its meaning is stated by `Geometry.Points`, `Geometry.EncodePoint` and `GeometryLemmas.PointEncoding` |
| Geometry.Points | lib/cmd/common-binary-cmd.js:111-124 | a point list encodes exactly when every entry passes the point test, in 16 bytes per point |
| Geometry.RingsSize | lib/cmd/common-binary-cmd.js:133-136 | definition of the size loop; its meaning is stated by `GeometryLemmas.RingsSizeAppend`, `GeometryBuffer.PolygonSize` and `Geometry.EncodePolygon` |
| Geometry.Rings | lib/cmd/common-binary-cmd.js:142-163 | when the rings encode, their bytes have exactly the size that the size loop precomputed |
| Geometry.Truncate | lib/cmd/common-binary-cmd.js:198-202 | a collection keeps at most one buffer per element; every kept buffer is the encoding of the element at its position, and the first element not kept gave null |
| Geometry.EncodePoint | lib/cmd/common-binary-cmd.js:86-102 | a Point encodes exactly when it passes the point test, in 21 bytes starting with its header, and never throws for coordinates whose number coercion succeeds |
| Geometry.EncodeLineString | lib/cmd/common-binary-cmd.js:104-128 | a LineString throws exactly when its point count is above 2^31-1; when it encodes it fills the `9 + 16·n` bytes allocated, with header and count first |
| Geometry.EncodePolygon | lib/cmd/common-binary-cmd.js:130-167 | a Polygon can throw only when its coordinates are an array; when it encodes it fills exactly the `9 + size` bytes the size loop allocates, with header and ring count first |
| Geometry.EncodeSub | lib/cmd/common-binary-cmd.js:227-308 | an element is encoded only under a Multi* header type, and its own type code is that of the Multi* less 3 (Point, LineString, Polygon) |
| Geometry.Assemble | lib/cmd/common-binary-cmd.js:203-204 | a collection buffer exists exactly when no element threw and the count is writable, and it starts with the header and the count of kept buffers |
| Geometry.Encode | lib/cmd/common-binary-cmd.js:80-225 | an unrecognised type gives null, and every buffer starts with the byte-order flag and the type code of the object's own type |
| GeometryLemmas.PointsAppend | lib/cmd/common-binary-cmd.js:111-124 | the points of two lists joined are the points of each list in order, and they fail if either list fails |
| GeometryLemmas.PointsAt | lib/cmd/common-binary-cmd.js:119-120 | point i sits at offset 16·i of the point block, X then Y |
| GeometryLemmas.RingsSizeAppend | lib/cmd/common-binary-cmd.js:133-136 | the precomputed polygon size adds up ring by ring |
| GeometryLemmas.RingsAreBlocks | lib/cmd/common-binary-cmd.js:142-163 | rings that are all writable encode as the concatenation of one count-plus-points block per ring |
| GeometryLemmas.RingsSucceed | lib/cmd/common-binary-cmd.js:142-163 | the rings encode if and only if every ring has a writable count and only valid points |
| GeometryLemmas.RingsNeverThrowWithSmallCounts | lib/cmd/common-binary-cmd.js:145 | with every ring count below 2^31 the rings never throw; they encode or give null |
| GeometryLemmas.TruncateAborted | lib/cmd/common-binary-cmd.js:215-219 | a collection aborts if and only if some element throws after only encodable elements |
| GeometryLemmas.TruncateAt | lib/cmd/common-binary-cmd.js:215-219 | n encodable elements followed by a null element (or by the end) keep exactly those n buffers |
| GeometryLemmas.PointEncoding | lib/cmd/common-binary-cmd.js:86-102 | a Point encodes if and only if its coordinates pass the point test, as the 21 bytes header, X, Y; otherwise it gives null |
| GeometryLemmas.LineStringEncoding | lib/cmd/common-binary-cmd.js:104-128 | a LineString array encodes if and only if every entry is a point, as header, count and points; otherwise it gives null |
| GeometryLemmas.PolygonEncoding | lib/cmd/common-binary-cmd.js:130-167 | a Polygon of array rings encodes if and only if every ring holds only points, as header, ring count and one block per ring; otherwise it gives null |
| GeometryLemmas.PolygonRingNotArray | lib/cmd/common-binary-cmd.js:133-137 | a Polygon with a ring that is not an array throws before anything is written (line 135 or the allocation at line 137) |
| GeometryLemmas.SimpleKindNotArray | lib/cmd/common-binary-cmd.js:86-167 | a Point, LineString or Polygon whose coordinates are not an array gives null |
| GeometryLemmas.UnrecognisedType | lib/cmd/common-binary-cmd.js:209-210 | an object whose type is not one of the seven names gives null |
| GeometryLemmas.NullOnlyForSimpleKinds | lib/cmd/common-binary-cmd.js:169-225 | only an unrecognised type, a Point, a LineString or a Polygon ever gives null; a collection gives a buffer or throws |
| GeometryLemmas.SubEncodingMatchesTopLevel | lib/cmd/common-binary-cmd.js:227-308 | a Multi* element is encoded exactly as a top-level Point, LineString or Polygon with the same coordinates |
| GeometryLemmas.EmptyCollections | lib/cmd/common-binary-cmd.js:169-225 | a collection without an element array is exactly its own 9-byte header (byte order, its type code 4 to 7) with count 0 |
| GeometryLemmas.MultiTruncation | lib/cmd/common-binary-cmd.js:212-221 | a Multi* whose first n elements encode and whose next gives null is the header, count n and those n buffers |
| GeometryLemmas.MultiAborts | lib/cmd/common-binary-cmd.js:215-219 | a Multi* throws when an element throws before any element gives null |
| GeometryLemmas.CollectionTruncation | lib/cmd/common-binary-cmd.js:195-204 | a GeometryCollection whose first n children encode and whose next gives null is the header, count n and those n buffers |
| GeometryLemmas.CollectionAborts | lib/cmd/common-binary-cmd.js:198-202 | a GeometryCollection throws when a child throws before any child gives null |
| GeometryLemmas.MultiPointKeepsValidPrefix | lib/cmd/common-binary-cmd.js:212-243 | a MultiPoint whose second point is bad keeps only the first point, with count 1 |
| GeometryBuffer.AllocUnsafe | lib/cmd/common-binary-cmd.js:107 | the buffer has the requested size; its contents are arbitrary |
| GeometryBuffer.WriteHeader | lib/cmd/common-binary-cmd.js:108-109 | the first five bytes become the byte-order flag and the type code |
| GeometryBuffer.WritePoint | lib/cmd/common-binary-cmd.js:119-120 | X and Y land at the given offset and the bytes before it are kept |
| GeometryBuffer.WritePoints | lib/cmd/common-binary-cmd.js:111-124 | the point loop succeeds if and only if every entry is a point, and it leaves the point block after the bytes already written |
| GeometryBuffer.PointBuffer | lib/cmd/common-binary-cmd.js:86-102 | the buffer written for a Point equals the WKB layout |
| GeometryBuffer.LineStringBuffer | lib/cmd/common-binary-cmd.js:104-128 | the buffer written for a LineString equals the WKB layout |
| GeometryBuffer.PolygonSize | lib/cmd/common-binary-cmd.js:132-136 | the size loop finishes if and only if every ring is an array, with four bytes plus sixteen per point for each ring |
| GeometryBuffer.WriteRing | lib/cmd/common-binary-cmd.js:143-161 | one ring is written if and only if its count is writable and all its entries are points; otherwise it throws or gives null |
| GeometryBuffer.WriteRings | lib/cmd/common-binary-cmd.js:141-164 | the ring loop fills the precomputed buffer after the 9-byte header exactly with the ring blocks |
| GeometryBuffer.PolygonBuffer | lib/cmd/common-binary-cmd.js:130-167 | the buffer written for a Polygon equals the WKB layout |
| GeometryBuffer.SubBuffer | lib/cmd/common-binary-cmd.js:227-308 | an element buffer written under a Multi* header type equals its WKB layout |
| GeometryBuffer.CountHeader | lib/cmd/common-binary-cmd.js:171-173 | a collection header with a writable count is the 9 bytes of header and count; a larger count throws |
| GeometryBuffer.Collect | lib/cmd/common-binary-cmd.js:215-219 | one turn of the element loop stops on null, aborts on an exception, and otherwise keeps the element's buffer |
| GeometryBuffer.Finish | lib/cmd/common-binary-cmd.js:220-221 | the kept buffers follow the header and their count |
| GeometryBuffer.MultiBuffer | lib/cmd/common-binary-cmd.js:212-225 | the buffer written for a Multi* keeps the longest prefix of encodable elements |
| GeometryBuffer.CollectionBuffer | lib/cmd/common-binary-cmd.js:190-204 | the buffer written for a GeometryCollection keeps the longest prefix of encodable children |
| GeometryBuffer.GetBufferFromGeometryValue | lib/cmd/common-binary-cmd.js:80-310 | for every geometry object the buffer-filling encoder returns exactly the WKB layout, null or exception of `Encode` |
| Params.WriteNull | lib/cmd/common-binary-cmd.js:64 | the NULL marker is the only write, and the flag reports its flush |
| Params.WriteValue | lib/cmd/common-binary-cmd.js:27-28 | the value marker precedes the payload, and the flag is set if and only if either write flushed |
| Params.IsGeometryObject | lib/cmd/common-binary-cmd.js:44-56 | definition of the geometry branch condition; its meaning is stated by `Params.WriteParam` and `Params.ObjectBranchOrder` |
| Params.WriteParam | lib/cmd/common-binary-cmd.js:23-78 | every parameter starts with a marker; NULL is sent alone and only for a geometry that gives null; a value is one payload, a byte only for booleans; `null` and a throwing geometry throw; the flag reports any flush |
| Params.NullMarkerOnlyForSimpleGeometries | lib/cmd/common-binary-cmd.js:44-65 | a parameter sent as NULL was a Point, LineString or Polygon object |
| Params.GeometryPayload | lib/cmd/common-binary-cmd.js:57-62 | an encodable geometry is sent as four zero SRID bytes followed by its WKB |
| Params.ObjectBranchOrder | lib/cmd/common-binary-cmd.js:35-70 | Date wins over Buffer, Buffer over `toSqlString`, that over geometry, and JSON is the fallback |
| Params.ScalarPayloads | lib/cmd/common-binary-cmd.js:25-76 | for every primitive: a boolean is sent as byte 1 or 0, a number as the text of `'' + value` in a length-encoded ASCII string, and any other primitive as a length-encoded string, each after the value marker |
| Params.BadPointIsNull | lib/cmd/common-binary-cmd.js:90-102 | a Point object without two numeric coordinates is sent as NULL |
| Rows.Lookup | lib/cmd/common-binary-cmd.js:386 | indexing a buffer with a number gives the byte at position k whenever the number equals an in-range position k, and gives a byte only in that case; at any other number, a fraction included, it is undefined |
| Rows.NullBitAsWritten | lib/cmd/common-binary-cmd.js:386 | definition of the test as written; its meaning is stated by `Rows.NullBitAsWrittenShape` and `Rows.AsWrittenMissesNullColumn` |
| Rows.NullBit | lib/cmd/common-binary-cmd.js:386 | definition of the protocol's test; its meaning is stated by `Rows.NullBitmapRoundTrip` |
| Rows.BitmapSize | lib/cmd/common-binary-cmd.js:352 | the bitmap has the fewest bytes that hold the two reserved bits and one bit per column |
| Rows.NullBitAsWrittenShape | lib/cmd/common-binary-cmd.js:386-388 | the test as written marks a column null only when (index+2) is a multiple of 8, and only through the low bit of the byte after the one it means |
| Rows.BitmapCoversColumns | lib/cmd/common-binary-cmd.js:352 | the bitmap the row builder skips has a byte for every column's bit |
| Rows.PackBitsBit | lib/cmd/common-binary-cmd.js:386 | bit k of a packed byte is the k-th flag |
| Rows.NullBitmapRoundTrip | lib/cmd/common-binary-cmd.js:386-388 | for a bitmap built from a set of null columns, the protocol's test marks a column null if and only if it is in the set |
| Rows.AsWrittenMissesNullColumn | lib/cmd/common-binary-cmd.js:386 | column 0 of a one-column row marked null in the bitmap is not null under the test as written |
| Rows.Split | lib/cmd/common-binary-cmd.js:431 | splitting on commas gives at least one piece and no piece holds a comma |
| Rows.JoinSplit | lib/cmd/common-binary-cmd.js:431 | joining the pieces with commas gives back the string |
| Rows.SplitJoin | lib/cmd/common-binary-cmd.js:431 | splitting comma-joined comma-free pieces gives back the pieces |
| Rows.SplitNoComma | lib/cmd/common-binary-cmd.js:431 | a string without a comma is a single piece |
| Rows.SetMembers | lib/cmd/common-binary-cmd.js:431 | definition of the SET member list; its meaning is stated by `Rows.SetMembersRoundTrip` and `Rows.SetColumn` |
| Rows.SetMembersRoundTrip | lib/cmd/common-binary-cmd.js:429-432 | a SET value's members rejoin to its text, and the members of a joined list are that list |
| Rows.ReadColumn | lib/cmd/common-binary-cmd.js:389-434 | a non-null column makes exactly one read, and it gives a string cell only for a type without its own case and without binary collation |
| Rows.ReadRowData | lib/cmd/common-binary-cmd.js:385-435 | it throws if and only if there is no bitmap; it reads nothing and gives null if and only if the test as written marks the column null; otherwise it reads once |
| Rows.ReadRowDataCorrected | lib/cmd/common-binary-cmd.js:386-388 | the same with the protocol's bitmap test: the column reads nothing and gives null if and only if its bit is set |
| Rows.CorrectedReadsNullColumns | lib/cmd/common-binary-cmd.js:386-388 | with a bitmap built from a set of null columns, the corrected decoder gives null exactly for the columns in the set |
| Rows.IntegerReads | lib/cmd/common-binary-cmd.js:392-404 | integer columns read signed or unsigned by the UNSIGNED flag, at the width of their type |
| Rows.OtherReads | lib/cmd/common-binary-cmd.js:390-428 | each remaining column type makes its own fixed read (double, float, date, time, geometry, JSON), the decimal read takes the query's two number options, and any other non-binary type reads text |
| Rows.BinaryCollationIgnoresSet | lib/cmd/common-binary-cmd.js:425-427 | a binary-collated column without its own case reads bytes, whatever its SET flag |
| Rows.SetColumn | lib/cmd/common-binary-cmd.js:429-432 | a SET column gives null for a null string, no members for the empty string, and otherwise members that rejoin with commas to the text |
| Rows.ReadCastValue | lib/cmd/common-binary-cmd.js:367-373 | definition of the cast hook call; its meaning is stated by `Rows.ReadCastForwarding` |
| Rows.ReadCastForwarding | lib/cmd/common-binary-cmd.js:367-373 | with a cast hook that forces the default reader, `readCastValue` gives exactly what `readRowData` gives |
| RowShapes.Skip | lib/cmd/common-binary-cmd.js:351 | definition of `packet.skip`; `RowShapes.ParseRowStd` states where the bitmap starts after it |
| RowShapes.ReadBuffer | lib/cmd/common-binary-cmd.js:352 | reading n bytes advances the position by n and gives those bytes when they are there |
| RowShapes.Cells | lib/cmd/common-binary-cmd.js:329-331 | the getter loop gives one cell per remaining column |
| RowShapes.CellsSpec | lib/cmd/common-binary-cmd.js:329-331 | cell i is what the getter returns at the current position, the rest continue from the position it leaves, and a throwing getter aborts the row |
| RowShapes.CellsOfPureGetter | lib/cmd/common-binary-cmd.js:329-331 | a getter that ignores the packet gives cell i for column i |
| RowShapes.Flat | lib/cmd/common-binary-cmd.js:355 | definition of the flat row; its meaning is stated by `RowShapes.FlatKeys` and `RowShapes.FlatLast` |
| RowShapes.FlatKeys | lib/cmd/common-binary-cmd.js:354-362 | the flat row has exactly the column names as keys |
| RowShapes.FlatLast | lib/cmd/common-binary-cmd.js:354-362 | a column name maps to the cell of its last column, so later columns with the same name win |
| RowShapes.Nested | lib/cmd/common-binary-cmd.js:338-339 | definition of the nested row; its meaning is stated by `RowShapes.NestedTables`, `RowShapes.NestedColumns` and `RowShapes.NestedLast` |
| RowShapes.NestedStep | lib/cmd/common-binary-cmd.js:338-339 | one more column creates its table when missing and stores the cell under the column name, keeping the other tables |
| RowShapes.NestedTables | lib/cmd/common-binary-cmd.js:337-345 | the nested row has exactly the table names as keys |
| RowShapes.NestedColumns | lib/cmd/common-binary-cmd.js:337-345 | each table maps exactly the names of its columns |
| RowShapes.NestedLast | lib/cmd/common-binary-cmd.js:337-345 | a table and column pair maps to the cell of its last occurrence |
| RowShapes.ParseRowAsArray | lib/cmd/common-binary-cmd.js:327-333 | the array row is the getter loop's cells, without a bitmap, and it fails exactly when the loop throws |
| RowShapes.ParseRowNested | lib/cmd/common-binary-cmd.js:335-348 | the nested row maps table and column name to the getter loop's cells |
| RowShapes.ParseRowStd | lib/cmd/common-binary-cmd.js:350-365 | the flat row skips one header byte, takes the bitmap from the packet, and maps names to cells read after the bitmap |
| RowShapes.ParseRow | lib/cmd/common-binary-cmd.js:323-325 | the base row parser never returns a row |

## Left out

- JavaScript number coercion is not modelled. A coordinate is reduced to what the encoder observes: whether `isNaN` holds and the eight `writeDoubleLE` bytes. The text of `'' + value` for a number parameter is kept as given. Floating point is out of scope.
- A Polygon ring that is not an array but has a numeric `length` (a string, an array-like object, a function) is modelled as a thrown exception. The code skips such a ring after counting its length, so the buffer would keep uninitialised bytes. That outcome has no faithful pure model.
- A `null` or `undefined` child of a GeometryCollection is excluded by the types. The code reads its `type`, which throws. A primitive child has no recognised `type` and gives null, as a child of kind None does in the model.
- Allocation failures of `Buffer.allocUnsafe` for sizes beyond the platform limit are not modelled.
- Writer buffering is not modelled. Each write appears in a log, and whether it flushed is a parameter.
- The options argument of `writeBinaryDate` is not modelled. A date payload records only the Date.
- Exceptions from `toSqlString` and `JSON.stringify` are not modelled. Their results are fields of the object.
- The packet reader's typed reads are opaque tokens naming the read performed. Decoding a double, date, decimal or length-encoded string is not part of this model. `JSON.parse` of a JSON column is included in the JSON read token.
- `castTextWrapper` and the subclasses' `_getValue` are not part of this model. The row builders take the cell getter as a parameter.
- JavaScript property-name quirks of the row objects are not modelled. Examples are `__proto__` and inherited names. Row objects are maps from name to cell.
- `lib/const/field-type.js` and `lib/const/field-detail.js` are not part of this model. Their values are restated as constants.
- Geometry.EncodePoint: a coordinate whose `isNaN` coercion throws (a BigInt, a Symbol, an object whose `valueOf` throws) is outside `Scalar`. The code throws a TypeError there, at lines 94-95, 116-117, 152-153, 233-234, 257-258 and 292-293. The model's encoders, and `Params.WriteParam`'s throw condition, hold only for coordinates whose coercion succeeds.
- Params.WriteParam: a geometry coordinate whose number coercion throws makes the source throw, which the model's throw condition does not include (see the line above).
- Params.WriteParam: only string payloads are modelled for the default branch (`Param.Text`). `undefined`, bigint, symbol and function values also reach `writeLengthEncodedString` there, and what the writer does with them is not part of this model.
- Rows.ReadCastValue has no contract of its own. It returns whatever the cast hook returns, which is stated through `Rows.ReadCastForwarding`.
- Geometry.Rings states only the length of its result. Its content is stated by `GeometryLemmas.RingsAreBlocks` and `GeometryLemmas.RingsSucceed`.

## Findings

| source | as written | input that shows it | evidently intended | confidence | as-written member | corrected member |
|---|---|---|---|---|---|---|
| lib/cmd/common-binary-cmd.js:386 | the null test indexes the bitmap at `1 + (index + 2) / 8` without rounding down, and `nullBuf` already starts after the header byte | a one-column row whose column is NULL has bitmap `[4]`; the test reads `nullBuf[1.25]`, which is `undefined`, so the column is read as a value | test bit `(index + 2) % 8` of bitmap byte `floor((index + 2) / 8)` | high, not executed | `Rows.NullBitAsWritten`, exhibited by `Rows.AsWrittenMissesNullColumn` and `Rows.NullBitAsWrittenShape` | `Rows.NullBit`, proved by `Rows.NullBitmapRoundTrip`; used by `Rows.ReadRowDataCorrected` and `Rows.CorrectedReadsNullColumns` |

=== FILE: bytes.dfy ===
/** Bytes, the little-endian 32-bit count field, and the in-place writes of a
    Node.js Buffer, as the binary codec uses them. */
module Bytes {

  type byte = b: int | 0 <= b < 256

  /** Exactly the eight bytes `writeDoubleLE` stores for one coordinate. */
  type Bytes8 = s: seq<byte> | |s| == 8 witness [0, 0, 0, 0, 0, 0, 0, 0]

  /** The largest value `writeInt32LE` accepts; larger counts make it throw. */
  const MaxInt32: nat := 0x7FFF_FFFF

  /** The four bytes `writeInt32LE(n)` stores for a non-negative `n`, least
      significant first. */
  function LE32(n: nat): (r: seq<byte>)
    requires n <= MaxInt32
    ensures |r| == 4
    ensures r[3] < 0x80
    ensures ReadLE32(r) == n
  {
    var a := n / 256;
    var b := a / 256;
    var c := b / 256;
    [n % 256, a % 256, b % 256, c]
  }

  /** Reads back a little-endian unsigned 32-bit value. */
  function ReadLE32(b: seq<byte>): nat
    requires |b| == 4
  {
    (b[0] as int) + 256 * (b[1] as int) + 65536 * (b[2] as int) + 16777216 * (b[3] as int)
  }

  /** A Buffer write of `data` at offset `off`: the bytes before and after are
      left as they were. */
  function WriteAt(buf: seq<byte>, off: nat, data: seq<byte>): (r: seq<byte>)
    requires off + |data| <= |buf|
    ensures |r| == |buf|
    ensures r[off..off + |data|] == data
    ensures r[..off] == buf[..off]
    ensures r[off + |data|..] == buf[off + |data|..]
    ensures r[..off + |data|] == buf[..off] + data
  {
    buf[..off] + data + buf[off + |data|..]
  }

  /** The summed length of a sequence of buffers. */
  function TotalSize(parts: seq<seq<byte>>): nat
  {
    if parts == [] then 0 else |parts[0]| + TotalSize(parts[1..])
  }

  /** The concatenation of a sequence of buffers, as `Buffer.concat` builds it:
      as long as all parts together. */
  function Concat(parts: seq<seq<byte>>): (r: seq<byte>)
    ensures |r| == TotalSize(parts)
    ensures |parts| == 1 ==> r == parts[0]
  {
    if parts == [] then [] else parts[0] + Concat(parts[1..])
  }

  lemma {:induction false} ConcatAppend(parts: seq<seq<byte>>, last: seq<byte>)
    ensures Concat(parts + [last]) == Concat(parts) + last
    decreases |parts|
  {
    if parts == [] {
      assert parts + [last] == [last];
    } else {
      assert (parts + [last])[1..] == parts[1..] + [last];
      ConcatAppend(parts[1..], last);
    }
  }
}

=== FILE: geometry.dfy ===
/** What `getBufferFromGeometryValue` returns for a geometry object: the
    Well-Known Binary (WKB) layout of section 8.2 of OGC Simple Features Access
    Part 1 (ISO 19125-1), little-endian, written as concatenations of fields. */
module Geometry {
  import opened Bytes
  import opened Js

  /** The seven recognised values of a geometry object's `type`. */
  datatype Kind =
    | Point | LineString | Polygon
    | MultiPoint | MultiLineString | MultiPolygon
    | GeometryCollection

  /** A geometry object as the encoder reads it. `kind` is None when `type` is
      missing or not one of the seven names. */
  datatype GeoValue = GeoValue(kind: Option<Kind>, coordinates: Value, geometries: Children)

  /** The `geometries` property: an array of geometry objects, or anything else. */
  datatype Children = NoArray | Children(kids: seq<GeoValue>)

  /** The encoder's outcome: a buffer, `null`, or a thrown exception. */
  datatype Enc = Wkb(bytes: seq<byte>) | Null | Thrown

  /** The outcome of encoding the elements of a collection until the first one
      that does not encode: the buffers encoded so far, or an exception. */
  datatype Prefix = Encoded(bufs: seq<seq<byte>>) | Aborted

  /** The WKB byte-order flag for little-endian (NDR). */
  const LittleEndian: byte := 0x01

  /** The WKB geometry type code. */
  function TypeCode(k: Kind): (c: nat)
    ensures 1 <= c <= 7
  {
    match k
    case Point => 1
    case LineString => 2
    case Polygon => 3
    case MultiPoint => 4
    case MultiLineString => 5
    case MultiPolygon => 6
    case GeometryCollection => 7
  }

  /** Byte order followed by the type code. */
  function Header(k: Kind): (h: seq<byte>)
    ensures |h| == 5
  {
    [LittleEndian] + LE32(TypeCode(k))
  }

  /** The point test the encoder applies: an array of at least two entries,
      the first two not NaN. Further entries are ignored. */
  predicate IsPoint(p: Value)
  {
    p.Arr? && |p.items| >= 2 && !IsNaN(p.items[0]) && !IsNaN(p.items[1])
  }

  /** The X then Y doubles of a point. */
  function XY(p: Value): (r: seq<byte>)
    requires IsPoint(p)
    ensures |r| == 16
  {
    Num(p.items[0]).f64le + Num(p.items[1]).f64le
  }

  /** Every entry passes the point test. */
  predicate AllPoints(pts: seq<Value>)
  {
    forall i | 0 <= i < |pts| :: IsPoint(pts[i])
  }

  /** The points of a line string in order, or None when any is not a point. */
  function Points(pts: seq<Value>): (r: Option<seq<byte>>)
    ensures r.Some? <==> AllPoints(pts)
    ensures r.Some? ==> |r.value| == 16 * |pts|
  {
    if pts == [] then Some([])
    else if !IsPoint(pts[0]) then None
    else
      match Points(pts[1..])
      case None => None
      case Some(rest) => Some(XY(pts[0]) + rest)
  }

  /** A Point: the 21 bytes of header, X and Y, or `null`; it never throws
      for coordinates whose number coercion succeeds. */
  function EncodePoint(v: Value): (r: Enc)
    ensures r.Wkb? <==> IsPoint(v)
    ensures !r.Thrown?
    ensures r.Wkb? ==> |r.bytes| == 21 && r.bytes[..5] == Header(Point)
  {
    if IsPoint(v) then Wkb(Header(Point) + XY(v)) else Null
  }

  /** A LineString: header, point count and points, sized `9 + 16 * n` as
      allocated; it throws only for a count too large to write. */
  function EncodeLineString(v: Value): (r: Enc)
    ensures r.Thrown? <==> v.Arr? && |v.items| > MaxInt32
    ensures r.Wkb? ==> v.Arr? && |r.bytes| == 9 + 16 * |v.items|
    ensures r.Wkb? ==> r.bytes[..5] == Header(LineString) && r.bytes[5..9] == LE32(|v.items|)
  {
    if !v.Arr? then Null
    else if |v.items| > MaxInt32 then Thrown
    else
      match Points(v.items)
      case None => Null
      case Some(body) => Wkb(Header(LineString) + LE32(|v.items|) + body)
  }

  /** True when every ring is an array; the size computation throws otherwise. */
  predicate RingsAreArrays(rings: seq<Value>)
  {
    forall i | 0 <= i < |rings| :: rings[i].Arr?
  }

  /** The byte size the size loop computes: four bytes of count and sixteen
      per point, for every ring. */
  function RingsSize(rings: seq<Value>): nat
    requires RingsAreArrays(rings)
  {
    if rings == [] then 0 else 4 + 16 * |rings[0].items| + RingsSize(rings[1..])
  }

  /** A ring whose count can be written and whose entries are all points. */
  predicate GoodRing(ring: Value)
  {
    ring.Arr? && |ring.items| <= MaxInt32 && AllPoints(ring.items)
  }

  /** The rings of a polygon, each as its point count followed by its points,
      processed in order: a count too large to write throws, a bad point gives
      `null`. */
  function Rings(rings: seq<Value>): (r: Enc)
    requires RingsAreArrays(rings)
    ensures r.Wkb? ==> |r.bytes| == RingsSize(rings)
  {
    if rings == [] then Wkb([])
    else if |rings[0].items| > MaxInt32 then Thrown
    else
      match Points(rings[0].items)
      case None => Null
      case Some(pts) =>
        match Rings(rings[1..])
        case Wkb(rest) => Wkb(LE32(|rings[0].items|) + pts + rest)
        case other => other
  }

  /** A Polygon: header, ring count and rings, filling exactly the
      `9 + size` bytes that the size loop allocates. */
  function EncodePolygon(v: Value): (r: Enc)
    ensures r.Thrown? ==> v.Arr?
    ensures r.Wkb? ==> v.Arr? && RingsAreArrays(v.items) && |v.items| <= MaxInt32
    ensures r.Wkb? ==> |r.bytes| == 9 + RingsSize(v.items)
    ensures r.Wkb? ==> r.bytes[..5] == Header(Polygon) && r.bytes[5..9] == LE32(|v.items|)
  {
    if !v.Arr? then Null
    else if !RingsAreArrays(v.items) || |v.items| > MaxInt32 then Thrown
    else
      match Rings(v.items)
      case Wkb(body) => Wkb(Header(Polygon) + LE32(|v.items|) + body)
      case other => other
  }

  /** The element encoding of a Multi* geometry, selected by `headerType`:
      every element is a full WKB Point, LineString or Polygon. */
  function EncodeSub(headerType: Kind, v: Value): (r: Enc)
    ensures headerType !in {MultiPoint, MultiLineString, MultiPolygon} ==> r.Null?
    ensures r.Wkb? ==> |r.bytes| >= 9 && r.bytes[0] == LittleEndian && r.bytes[1..5] == LE32(TypeCode(headerType) - 3)
  {
    match headerType
    case MultiPoint => EncodePoint(v)
    case MultiLineString => EncodeLineString(v)
    case MultiPolygon => EncodePolygon(v)
    case _ => Null
  }

  /** The outcome of encoding the elements of a collection in order until one
      gives `null`: the buffers of the longest prefix of elements that encode,
      or an exception when an element throws first. Elements after the first
      `null` are never encoded, which a pure model cannot tell apart from
      encoding and ignoring them. */
  function Truncate(encs: seq<Enc>): (r: Prefix)
    ensures r.Encoded? ==> |r.bufs| <= |encs|
    ensures r.Encoded? ==> forall i | 0 <= i < |r.bufs| :: encs[i] == Wkb(r.bufs[i])
    ensures r.Encoded? && |r.bufs| < |encs| ==> encs[|r.bufs|].Null?
  {
    if encs == [] then Encoded([])
    else
      match encs[0]
      case Thrown => Aborted
      case Null => Encoded([])
      case Wkb(b) =>
        match Truncate(encs[1..])
        case Aborted => Aborted
        case Encoded(rest) =>
          assert forall i | 1 <= i < |encs| :: encs[i] == encs[1..][i - 1];
          Encoded([b] + rest)
  }

  /** The element encodings of a Multi*, each selected by `headerType`. */
  function SubEncodings(headerType: Kind, elems: seq<Value>): (r: seq<Enc>)
    ensures |r| == |elems|
  {
    seq(|elems|, i requires 0 <= i < |elems| => EncodeSub(headerType, elems[i]))
  }

  /** The encodings of a GeometryCollection's children, each in full. */
  function ChildEncodings(g: GeoValue): (r: seq<Enc>)
    requires g.geometries.Children?
    ensures |r| == |g.geometries.kids|
    decreases g, 0
  {
    var kids := g.geometries.kids;
    seq(|kids|, i requires 0 <= i < |kids| => Encode(kids[i]))
  }

  /** A collection header, the count of encoded elements, and their buffers. */
  function Assemble(k: Kind, p: Prefix): (r: Enc)
    ensures r.Wkb? <==> p.Encoded? && |p.bufs| <= MaxInt32
    ensures r.Wkb? ==> |r.bytes| >= 9 && r.bytes[..5] == Header(k) && r.bytes[5..9] == LE32(|p.bufs|)
  {
    match p
    case Aborted => Thrown
    case Encoded(bufs) =>
      if |bufs| > MaxInt32 then Thrown
      else Wkb(Header(k) + LE32(|bufs|) + Concat(bufs))
  }

  /** `getBufferFromGeometryValue(value)` without a header type. */
  function Encode(g: GeoValue): (r: Enc)
    ensures g.kind.None? ==> r.Null?
    ensures r.Wkb? ==> g.kind.Some? && |r.bytes| >= 9 && r.bytes[..5] == Header(g.kind.value)
    decreases g, 1
  {
    match g.kind
    case None => Null
    case Some(k) =>
      match k
      case Point => EncodePoint(g.coordinates)
      case LineString => EncodeLineString(g.coordinates)
      case Polygon => EncodePolygon(g.coordinates)
      case GeometryCollection =>
        if g.geometries.NoArray? then Wkb(Header(k) + LE32(0))
        else Assemble(k, Truncate(ChildEncodings(g)))
      case _ =>
        if !g.coordinates.Arr? then Wkb(Header(k) + LE32(0))
        else Assemble(k, Truncate(SubEncodings(k, g.coordinates.items)))
  }
}

=== FILE: geometry_buffer.dfy ===
/** The encoder as the source writes it: a buffer from `Buffer.allocUnsafe`,
    whose initial contents are unspecified, filled by writes at computed
    offsets. Each method is proved to return exactly the layout of the
    `Geometry` functions, so no unwritten byte reaches the result. */
module GeometryBuffer {
  import opened Bytes
  import opened Js
  import opened Geometry
  import opened GeometryLemmas

  /** `Buffer.allocUnsafe(n)`: n bytes of unspecified contents. */
  method AllocUnsafe(n: nat) returns (buf: seq<byte>)
    ensures |buf| == n
  {
    var zeros: seq<byte> := seq(n, _ => 0);
    assert |zeros| == n;
    buf :| |buf| == n;
  }

  /** The byte order at offset 0 and the type code at offset 1. */
  method WriteHeader(buf: seq<byte>, k: Kind) returns (out: seq<byte>)
    requires |buf| >= 5
    ensures |out| == |buf|
    ensures out[..5] == Header(k)
  {
    out := WriteAt(buf, 0, [LittleEndian]);
    out := WriteAt(out, 1, LE32(TypeCode(k)));
  }

  /** The point loop: each entry checked, then X written at `pos` and Y at
      `pos + 8`; the first entry that is not a point stops with None. */
  method WritePoints(buf: seq<byte>, pos: nat, pts: seq<Value>) returns (r: Option<seq<byte>>)
    requires pos + 16 * |pts| <= |buf|
    ensures r.Some? <==> AllPoints(pts)
    ensures r.Some? ==> |r.value| == |buf|
    ensures r.Some? ==> r.value[..pos + 16 * |pts|] == buf[..pos] + Points(pts).value
  {
    var out := buf;
    var i := 0;
    while i < |pts|
      invariant 0 <= i <= |pts|
      invariant |out| == |buf|
      invariant Points(pts[..i]).Some?
      invariant out[..pos + 16 * i] == buf[..pos] + Points(pts[..i]).value
    {
      if !IsPoint(pts[i]) {
        return None;
      }
      var next := WritePoint(out, pos + 16 * i, pts[i]);
      PointsStep(pts, i);
      AppendBlock(next[..pos + 16 * i + 16], buf[..pos], Points(pts[..i]).value, XY(pts[i]));
      out := next;
      i := i + 1;
    }
    assert pts[..i] == pts;
    return Some(out);
  }

  /** Lines 119-120: X at `at`, Y at `at + 8`. */
  method WritePoint(buf: seq<byte>, at: nat, p: Value) returns (out: seq<byte>)
    requires IsPoint(p) && at + 16 <= |buf|
    ensures |out| == |buf|
    ensures out[..at + 16] == buf[..at] + XY(p)
  {
    var x, y := Num(p.items[0]).f64le, Num(p.items[1]).f64le;
    var once := WriteAt(buf, at, x);
    out := WriteAt(once, at + 8, y);
    assert out[..at + 16] == once[..at + 8] + y;
    assert once[..at + 8] == buf[..at] + x;
  }

  lemma PointsStep(pts: seq<Value>, i: nat)
    requires i < |pts| && Points(pts[..i]).Some? && IsPoint(pts[i])
    ensures Points(pts[..i + 1]) == Some(Points(pts[..i]).value + XY(pts[i]))
  {
    var one := [pts[i]];
    assert one[1..] == [];
    assert XY(pts[i]) + [] == XY(pts[i]);
    assert Points(one) == Some(XY(pts[i]));
    PointsAppend(pts[..i], one);
    assert pts[..i] + one == pts[..i + 1];
  }

  /** Lines 87-102, and 229-243 for a MultiPoint element: a 21-byte buffer
      with its header; the doubles are written only when the point test
      passes. */
  method PointBuffer(v: Value) returns (r: Enc)
    ensures r == EncodePoint(v)
  {
    var buf := AllocUnsafe(21);
    buf := WriteHeader(buf, Point);
    if IsPoint(v) {
      buf := WriteAt(buf, 5, Num(v.items[0]).f64le);
      buf := WriteAt(buf, 13, Num(v.items[1]).f64le);
      return Wkb(buf);
    }
    return Null;
  }

  /** Lines 105-128, and 246-268 for a MultiLineString element. */
  method LineStringBuffer(v: Value) returns (r: Enc)
    ensures r == EncodeLineString(v)
  {
    if !v.Arr? {
      return Null;
    }
    var pts := v.items;
    var buf := AllocUnsafe(9 + 16 * |pts|);
    buf := WriteHeader(buf, LineString);
    if |pts| > MaxInt32 {
      return Thrown;
    }
    buf := WriteAt(buf, 5, LE32(|pts|));
    var filled := WritePoints(buf, 9, pts);
    if filled.None? {
      return Null;
    }
    assert filled.value[..9 + 16 * |pts|] == filled.value;
    return Wkb(filled.value);
  }

  /** Lines 133-137: the size loop over the rings; a ring that is not an
      array throws before anything is written, at line 135 for `null` or
      `undefined` and at the allocation of line 137 for a ring without a
      numeric length. */
  method PolygonSize(rings: seq<Value>) returns (size: Result<nat>)
    ensures size.Ok? <==> RingsAreArrays(rings)
    ensures size.Ok? ==> size.value == RingsSize(rings)
  {
    var total := 0;
    var i := 0;
    while i < |rings|
      invariant 0 <= i <= |rings|
      invariant RingsAreArrays(rings[..i])
      invariant total == RingsSize(rings[..i])
    {
      if !rings[i].Arr? {
        return Throws;
      }
      assert rings[..i] + [rings[i]] == rings[..i + 1];
      RingsSizeAppend(rings[..i], [rings[i]]);
      total := total + 4 + 16 * |rings[i].items|;
      i := i + 1;
    }
    assert rings[..i] == rings;
    return Ok(total);
  }

  /** A buffer written so far, in front of the outcome of the rest. */
  function Prepend(done: seq<byte>, e: Enc): Enc
  {
    match e
    case Wkb(b) => Wkb(done + b)
    case other => other
  }

  lemma PrependPrepend(done: seq<byte>, more: seq<byte>, e: Enc)
    ensures Prepend(done, Prepend(more, e)) == Prepend(done + more, e)
  {
    if e.Wkb? {
      assert done + (more + e.bytes) == (done + more) + e.bytes;
    }
  }

  /** The rings from `i` on, with ring `i` unfolded. */
  lemma RingsFrom(rings: seq<Value>, i: nat)
    requires RingsAreArrays(rings) && i < |rings|
    ensures RingsAreArrays(rings[i..]) && RingsAreArrays(rings[i + 1..])
    ensures RingsSize(rings[i..]) == 4 + 16 * |rings[i].items| + RingsSize(rings[i + 1..])
    ensures Rings(rings[i..]) ==
      if |rings[i].items| > MaxInt32 then Thrown
      else if !GoodRing(rings[i]) then Null
      else Prepend(RingBlock(rings[i]), Rings(rings[i + 1..]))
  {
    assert rings[i..][0] == rings[i];
    assert rings[i..][1..] == rings[i + 1..];
  }

  /** Lines 142-163: one ring of a polygon written at `pos`, its count then
      its points. */
  method WriteRing(buf: seq<byte>, pos: nat, ring: Value) returns (r: Enc)
    requires ring.Arr? && pos + 4 + 16 * |ring.items| <= |buf|
    ensures r.Wkb? <==> GoodRing(ring)
    ensures !r.Wkb? ==> r == (if |ring.items| > MaxInt32 then Thrown else Null)
    ensures r.Wkb? ==> |r.bytes| == |buf|
    ensures r.Wkb? ==> r.bytes[..pos + |RingBlock(ring)|] == buf[..pos] + RingBlock(ring)
  {
    var pts := ring.items;
    if |pts| > MaxInt32 {
      return Thrown;
    }
    var out := WriteAt(buf, pos, LE32(|pts|));
    var filled := WritePoints(out, pos + 4, pts);
    if filled.None? {
      return Null;
    }
    assert out[..pos + 4] == buf[..pos] + LE32(|pts|);
    return Wkb(filled.value);
  }

  /** Lines 131-167, and 271-306 for a MultiPolygon element. */
  method PolygonBuffer(v: Value) returns (r: Enc)
    ensures r == EncodePolygon(v)
  {
    if !v.Arr? {
      return Null;
    }
    var rings := v.items;
    var size := PolygonSize(rings);
    if size.Throws? {
      return Thrown;
    }
    var buf := AllocUnsafe(9 + size.value);
    buf := WriteHeader(buf, Polygon);
    if |rings| > MaxInt32 {
      return Thrown;
    }
    buf := WriteAt(buf, 5, LE32(|rings|));
    r := WriteRings(buf, rings);
  }

  lemma AppendBlock(written: seq<byte>, head: seq<byte>, done: seq<byte>, block: seq<byte>)
    requires written == head + done + block
    ensures written == head + (done + block)
  {
  }

  /** The ring loop of lines 142-163, from offset 9 on. */
  method WriteRings(buf: seq<byte>, rings: seq<Value>) returns (r: Enc)
    requires RingsAreArrays(rings) && |buf| == 9 + RingsSize(rings)
    ensures r == Prepend(buf[..9], Rings(rings))
  {
    var out := buf;
    var done: seq<byte> := [];
    var i := 0;
    assert rings[0..] == rings;
    while i < |rings|
      invariant 0 <= i <= |rings|
      invariant RingsAreArrays(rings[i..])
      invariant |out| == |buf| == 9 + |done| + RingsSize(rings[i..])
      invariant out[..9 + |done|] == buf[..9] + done
      invariant Rings(rings) == Prepend(done, Rings(rings[i..]))
    {
      RingsFrom(rings, i);
      var step := WriteRing(out, 9 + |done|, rings[i]);
      if !step.Wkb? {
        return step;
      }
      var block := RingBlock(rings[i]);
      PrependPrepend(done, block, Rings(rings[i + 1..]));
      AppendBlock(step.bytes[..9 + |done| + |block|], buf[..9], done, block);
      out := step.bytes;
      done := done + block;
      i := i + 1;
    }
    assert rings[i..] == [];
    assert out[..9 + |done|] == out;
    return Wkb(out);
  }

  /** Lines 227-308: the element encoding selected by `headerType`. */
  method SubBuffer(headerType: Kind, v: Value) returns (r: Enc)
    ensures r == EncodeSub(headerType, v)
  {
    match headerType
    case MultiPoint => r := PointBuffer(v);
    case MultiLineString => r := LineStringBuffer(v);
    case MultiPolygon => r := PolygonBuffer(v);
    case _ => r := Null;
  }

  /** A 9-byte collection header: byte order, type code, element count. */
  method CountHeader(k: Kind, count: nat) returns (r: Enc)
    ensures count <= MaxInt32 ==> r == Wkb(Header(k) + LE32(count))
    ensures count > MaxInt32 ==> r.Thrown?
  {
    var buf := AllocUnsafe(9);
    buf := WriteHeader(buf, k);
    if count > MaxInt32 {
      return Thrown;
    }
    buf := WriteAt(buf, 5, LE32(count));
    assert buf[..9] == buf;
    return Wkb(buf);
  }

  /** Puts `parts` in front of the buffers kept after them. */
  function Extend(parts: seq<seq<byte>>, p: Prefix): Prefix
  {
    match p
    case Aborted => Aborted
    case Encoded(rest) => Encoded(parts + rest)
  }

  lemma ExtendExtend(parts: seq<seq<byte>>, b: seq<byte>, p: Prefix)
    ensures Extend(parts, Extend([b], p)) == Extend(parts + [b], p)
  {
    if p.Encoded? {
      assert parts + ([b] + p.bufs) == (parts + [b]) + p.bufs;
    }
  }

  /** One outcome of a collection loop, unfolded. */
  lemma TruncateStep(encs: seq<Enc>, i: nat)
    requires i < |encs|
    ensures Truncate(encs[i..]) ==
      match encs[i]
      case Thrown => Aborted
      case Null => Encoded([])
      case Wkb(b) => Extend([b], Truncate(encs[i + 1..]))
  {
    assert encs[i..][0] == encs[i];
    assert encs[i..][1..] == encs[i + 1..];
  }

  /** The loop of lines 195-204 and 212-221, given the element encoder's
      outcome at each turn: encodings kept in order, the loop left at the
      first `null`, an exception passed on. */
  method Collect(ghost encs: seq<Enc>, i: nat, parts: seq<seq<byte>>, tmp: Enc)
    returns (stop: bool, next: seq<seq<byte>>, aborted: bool)
    requires i < |encs| && tmp == encs[i]
    ensures aborted <==> tmp.Thrown?
    ensures stop <==> !tmp.Wkb?
    ensures !stop ==> next == parts + [tmp.bytes]
    ensures Extend(parts, Truncate(encs[i..])) ==
      if aborted then Aborted
      else if stop then Encoded(parts)
      else Extend(next, Truncate(encs[i + 1..]))
  {
    TruncateStep(encs, i);
    if tmp.Thrown? {
      return true, parts, true;
    }
    if tmp.Null? {
      assert parts + [] == parts;
      return true, parts, false;
    }
    ExtendExtend(parts, tmp.bytes, Truncate(encs[i + 1..]));
    return false, parts + [tmp.bytes], false;
  }

  /** The header and count of a collection in front of its kept buffers. */
  method Finish(k: Kind, p: Prefix) returns (r: Enc)
    ensures r == Assemble(k, p)
  {
    if p.Aborted? {
      return Thrown;
    }
    r := CountHeader(k, |p.bufs|);
    if r.Wkb? {
      assert ([r.bytes] + p.bufs)[1..] == p.bufs;
      r := Wkb(Concat([r.bytes] + p.bufs));
    }
  }

  /** Lines 212-221: each element sub-encoded in order, the loop left at the
      first `null`, the count of kept buffers written at offset 5. */
  method MultiBuffer(k: Kind, elems: seq<Value>) returns (r: Enc)
    ensures r == Assemble(k, Truncate(SubEncodings(k, elems)))
  {
    ghost var encs := SubEncodings(k, elems);
    var parts: seq<seq<byte>> := [];
    var i := 0;
    assert encs[0..] == encs;
    assert Extend([], Truncate(encs)) == Truncate(encs) by { ExtendNothing(Truncate(encs)); }
    while i < |elems|
      invariant 0 <= i <= |elems|
      invariant Truncate(encs) == Extend(parts, Truncate(encs[i..]))
    {
      var tmp := SubBuffer(k, elems[i]);
      var stop, next, aborted := Collect(encs, i, parts, tmp);
      if aborted {
        return Thrown;
      }
      if stop {
        r := Finish(k, Encoded(parts));
        return;
      }
      parts := next;
      i := i + 1;
    }
    assert encs[i..] == [];
    assert parts + [] == parts;
    r := Finish(k, Encoded(parts));
  }

  lemma ExtendNothing(p: Prefix)
    ensures Extend([], p) == p
  {
    if p.Encoded? {
      assert [] + p.bufs == p.bufs;
    }
  }

  /** Lines 195-204: each child encoded in full, in order, the loop left at
      the first `null`. */
  method CollectionBuffer(g: GeoValue) returns (r: Enc)
    requires g.kind == Some(GeometryCollection) && g.geometries.Children?
    ensures r == Assemble(GeometryCollection, Truncate(ChildEncodings(g)))
    decreases g, 0
  {
    var kids := g.geometries.kids;
    ghost var encs := ChildEncodings(g);
    var parts: seq<seq<byte>> := [];
    var i := 0;
    assert encs[0..] == encs;
    assert Extend([], Truncate(encs)) == Truncate(encs) by { ExtendNothing(Truncate(encs)); }
    while i < |kids|
      invariant 0 <= i <= |kids|
      invariant Truncate(encs) == Extend(parts, Truncate(encs[i..]))
    {
      var tmp := GetBufferFromGeometryValue(kids[i]);
      var stop, next, aborted := Collect(encs, i, parts, tmp);
      if aborted {
        return Thrown;
      }
      if stop {
        r := Finish(GeometryCollection, Encoded(parts));
        return;
      }
      parts := next;
      i := i + 1;
    }
    assert encs[i..] == [];
    assert parts + [] == parts;
    r := Finish(GeometryCollection, Encoded(parts));
  }

  /** Lines 80-225: `getBufferFromGeometryValue(value)`, dispatching on the
      object's `type`. */
  method GetBufferFromGeometryValue(g: GeoValue) returns (r: Enc)
    ensures r == Encode(g)
    decreases g, 1
  {
    if g.kind.None? {
      return Null;
    }
    var k := g.kind.value;
    match k
    case Point => r := PointBuffer(g.coordinates);
    case LineString => r := LineStringBuffer(g.coordinates);
    case Polygon => r := PolygonBuffer(g.coordinates);
    case GeometryCollection =>
      if g.geometries.Children? {
        r := CollectionBuffer(g);
      } else {
        r := CountHeader(k, 0);
      }
    case _ =>
      if g.coordinates.Arr? {
        r := MultiBuffer(k, g.coordinates.items);
      } else {
        r := CountHeader(k, 0);
      }
  }
}

=== FILE: geometry_lemmas.dfy ===
/** Properties of the WKB encoding: exact layouts and lengths, all-or-nothing
    failure of Point, LineString and Polygon, and the truncation rule of the
    Multi* kinds and GeometryCollection. */
module GeometryLemmas {
  import opened Bytes
  import opened Js
  import opened Geometry

  /** The points of two runs, encoded together, are the two encodings side by
      side; one bad point anywhere loses the whole run. */
  lemma {:induction false} PointsAppend(a: seq<Value>, b: seq<Value>)
    ensures Points(a + b) ==
      if Points(a).Some? && Points(b).Some? then Some(Points(a).value + Points(b).value) else None
    decreases |a|
  {
    if a == [] {
      assert a + b == b;
      if Points(b).Some? {
        assert [] + Points(b).value == Points(b).value;
      }
    } else {
      assert (a + b)[0] == a[0];
      assert (a + b)[1..] == a[1..] + b;
      PointsAppend(a[1..], b);
      if IsPoint(a[0]) && Points(a[1..]).Some? && Points(b).Some? {
        var x, y := Points(a[1..]).value, Points(b).value;
        assert Points((a + b)[1..]) == Some(x + y);
        assert Points(a + b) == Some(XY(a[0]) + (x + y));
        assert Points(a) == Some(XY(a[0]) + x);
        assert XY(a[0]) + (x + y) == (XY(a[0]) + x) + y;
      }
    }
  }

  /** Point `i` of a run sits at bytes `16 * i` to `16 * i + 16` of its encoding. */
  lemma {:induction false} PointsAt(pts: seq<Value>, i: nat)
    requires Points(pts).Some? && i < |pts|
    ensures IsPoint(pts[i])
    ensures Points(pts).value[16 * i..16 * i + 16] == XY(pts[i])
    decreases i
  {
    if i > 0 {
      PointsAt(pts[1..], i - 1);
      var rest := Points(pts[1..]).value;
      assert Points(pts).value == XY(pts[0]) + rest;
      assert Points(pts).value[16 * i..16 * i + 16] == rest[16 * (i - 1)..16 * (i - 1) + 16];
    }
  }

  lemma {:induction false} RingsSizeAppend(a: seq<Value>, b: seq<Value>)
    requires RingsAreArrays(a) && RingsAreArrays(b) && RingsAreArrays(a + b)
    ensures RingsSize(a + b) == RingsSize(a) + RingsSize(b)
    decreases |a|
  {
    if a == [] {
      assert a + b == b;
    } else {
      assert (a + b)[0] == a[0];
      assert (a + b)[1..] == a[1..] + b;
      RingsSizeAppend(a[1..], b);
    }
  }

  /** One ring: its count, then its points. */
  function RingBlock(ring: Value): (r: seq<byte>)
    requires GoodRing(ring)
    ensures |r| == 4 + 16 * |ring.items|
  {
    LE32(|ring.items|) + Points(ring.items).value
  }

  /** A successful ring encoding is the ring blocks in order. */
  lemma {:induction false} RingsAreBlocks(rings: seq<Value>)
    requires RingsAreArrays(rings) && forall i | 0 <= i < |rings| :: GoodRing(rings[i])
    ensures Rings(rings) == Wkb(Concat(seq(|rings|, i requires 0 <= i < |rings| => RingBlock(rings[i]))))
    decreases |rings|
  {
    if rings != [] {
      assert GoodRing(rings[0]);
      RingsAreBlocks(rings[1..]);
      var blocks := seq(|rings|, i requires 0 <= i < |rings| => RingBlock(rings[i]));
      assert blocks[1..] == seq(|rings| - 1, i requires 0 <= i < |rings| - 1 => RingBlock(rings[1..][i]));
    }
  }

  /** Rings encode exactly when every ring has a writable count and only
      points. */
  lemma {:induction false} RingsSucceed(rings: seq<Value>)
    requires RingsAreArrays(rings)
    ensures Rings(rings).Wkb? <==> forall i | 0 <= i < |rings| :: GoodRing(rings[i])
    decreases |rings|
  {
    if rings != [] {
      RingsSucceed(rings[1..]);
      assert forall i | 1 <= i < |rings| :: rings[i] == rings[1..][i - 1];
    }
  }

  /** The whole is aborted exactly when an outcome throws before any is
      `null`. */
  lemma {:induction false} TruncateAborted(encs: seq<Enc>)
    ensures Truncate(encs).Aborted? <==>
      exists i | 0 <= i < |encs| :: encs[i].Thrown? && forall j | 0 <= j < i :: encs[j].Wkb?
    decreases |encs|
  {
    if encs != [] {
      var tail := encs[1..];
      TruncateAborted(tail);
      assert forall i | 1 <= i < |encs| :: encs[i] == tail[i - 1];
      if encs[0].Wkb? && Truncate(encs).Aborted? {
        var i :| 0 <= i < |tail| && tail[i].Thrown? && forall j | 0 <= j < i :: tail[j].Wkb?;
        assert encs[i + 1].Thrown?;
        assert forall j | 0 <= j < i + 1 :: encs[j].Wkb?;
      }
    }
  }

  /** When the first `n` outcomes are buffers and the next, if any, is
      `null`, exactly those `n` buffers are kept. */
  lemma {:induction false} TruncateAt(encs: seq<Enc>, n: nat)
    requires n <= |encs| && forall i | 0 <= i < n :: encs[i].Wkb?
    requires n < |encs| ==> encs[n].Null?
    ensures Truncate(encs).Encoded?
    ensures Truncate(encs).bufs == seq(n, i requires 0 <= i < n => encs[i].bytes)
    decreases n
  {
    if n > 0 {
      var tail := encs[1..];
      assert forall i | 0 <= i < n - 1 :: tail[i] == encs[i + 1];
      TruncateAt(tail, n - 1);
      var rest := Truncate(tail).bufs;
      assert Truncate(encs).bufs == [encs[0].bytes] + rest;
    }
  }

  /** Point: 21 bytes, the byte order, type 1, X then Y; anything else is
      `null`. Entries after the second are ignored. */
  lemma PointEncoding(g: GeoValue)
    requires g.kind == Some(Point)
    ensures Encode(g).Wkb? <==> IsPoint(g.coordinates)
    ensures Encode(g).Null? <==> !IsPoint(g.coordinates)
    ensures IsPoint(g.coordinates) ==>
      var b := Encode(g).bytes;
      && |b| == 21
      && b[0] == LittleEndian
      && b[1..5] == LE32(1)
      && b[5..13] == Num(g.coordinates.items[0]).f64le
      && b[13..21] == Num(g.coordinates.items[1]).f64le
  {
  }

  /** LineString: 9 + 16 N bytes, type 2, count N, then point `i` at offset
      9 + 16 i; one bad point gives `null` instead of a partial buffer. */
  lemma LineStringEncoding(g: GeoValue)
    requires g.kind == Some(LineString) && g.coordinates.Arr?
    requires |g.coordinates.items| <= MaxInt32
    ensures Encode(g).Wkb? <==> AllPoints(g.coordinates.items)
    ensures Encode(g).Null? <==> !AllPoints(g.coordinates.items)
    ensures Encode(g).Wkb? ==>
      var pts := g.coordinates.items;
      var b := Encode(g).bytes;
      && |b| == 9 + 16 * |pts|
      && b[0] == LittleEndian
      && b[1..5] == LE32(2)
      && b[5..9] == LE32(|pts|)
      && forall i | 0 <= i < |pts| :: b[9 + 16 * i..25 + 16 * i] == XY(pts[i])
  {
    var pts := g.coordinates.items;
    if AllPoints(pts) {
      var b := Encode(g).bytes;
      var body := Points(pts).value;
      assert b == Header(LineString) + LE32(|pts|) + body;
      forall i | 0 <= i < |pts| ensures b[9 + 16 * i..25 + 16 * i] == XY(pts[i]) {
        PointsAt(pts, i);
        assert b[9 + 16 * i..25 + 16 * i] == body[16 * i..16 * i + 16];
      }
    }
  }

  /** Polygon: 9 bytes of header and ring count, then each ring as its count
      and its points, 9 + the sum of 4 + 16 |ring| bytes in all; one bad point
      in any ring gives `null`. */
  lemma PolygonEncoding(g: GeoValue)
    requires g.kind == Some(Polygon) && g.coordinates.Arr?
    requires RingsAreArrays(g.coordinates.items) && |g.coordinates.items| <= MaxInt32
    requires forall i | 0 <= i < |g.coordinates.items| :: |g.coordinates.items[i].items| <= MaxInt32
    ensures Encode(g).Wkb? <==> forall i | 0 <= i < |g.coordinates.items| :: AllPoints(g.coordinates.items[i].items)
    ensures Encode(g).Null? <==> !forall i | 0 <= i < |g.coordinates.items| :: AllPoints(g.coordinates.items[i].items)
    ensures Encode(g).Wkb? ==>
      var rings := g.coordinates.items;
      var b := Encode(g).bytes;
      && |b| == 9 + RingsSize(rings)
      && b[0] == LittleEndian
      && b[1..5] == LE32(3)
      && b[5..9] == LE32(|rings|)
      && b[9..] == Concat(seq(|rings|, i requires 0 <= i < |rings| => RingBlock(rings[i])))
  {
    var rings := g.coordinates.items;
    assert (forall i | 0 <= i < |rings| :: GoodRing(rings[i])) <==> (forall i | 0 <= i < |rings| :: AllPoints(rings[i].items));
    RingsNeverThrowWithSmallCounts(rings);
    RingsSucceed(rings);
    if Rings(rings).Wkb? {
      RingsAreBlocks(rings);
    }
  }

  lemma {:induction false} RingsNeverThrowWithSmallCounts(rings: seq<Value>)
    requires RingsAreArrays(rings)
    requires forall i | 0 <= i < |rings| :: |rings[i].items| <= MaxInt32
    ensures !Rings(rings).Thrown?
    decreases |rings|
  {
    if rings != [] {
      RingsNeverThrowWithSmallCounts(rings[1..]);
    }
  }

  /** A ring that is not an array makes the size computation throw. */
  lemma PolygonRingNotArray(g: GeoValue, i: nat)
    requires g.kind == Some(Polygon) && g.coordinates.Arr?
    requires i < |g.coordinates.items| && !g.coordinates.items[i].Arr?
    ensures Encode(g).Thrown?
  {
  }

  /** Point, LineString and Polygon with a `coordinates` that is not an array
      give `null`. */
  lemma SimpleKindNotArray(g: GeoValue)
    requires g.kind in {Some(Point), Some(LineString), Some(Polygon)}
    requires !g.coordinates.Arr?
    ensures Encode(g).Null?
  {
  }

  /** An unrecognised `type` gives `null`. */
  lemma UnrecognisedType(g: GeoValue)
    requires g.kind.None?
    ensures Encode(g).Null?
  {
  }

  /** The Multi* kinds and GeometryCollection never give `null`; only Point,
      LineString, Polygon and an unrecognised type can. */
  lemma {:induction false} NullOnlyForSimpleKinds(g: GeoValue)
    ensures Encode(g).Null? ==> g.kind in {None, Some(Point), Some(LineString), Some(Polygon)}
  {
    match g.kind
    case None =>
    case Some(k) =>
      match k
      case GeometryCollection =>
        if g.geometries.Children? {
          match Truncate(ChildEncodings(g))
          case Aborted =>
          case Encoded(_) =>
        }
      case MultiPoint =>
      case MultiLineString =>
      case MultiPolygon =>
      case _ =>
  }

  /** A Multi* element is encoded exactly as the top-level geometry of the
      matching simple kind with the same coordinates. */
  lemma SubEncodingMatchesTopLevel(c: Value, gs: Children)
    ensures EncodeSub(MultiPoint, c) == Encode(GeoValue(Some(Point), c, gs))
    ensures EncodeSub(MultiLineString, c) == Encode(GeoValue(Some(LineString), c, gs))
    ensures EncodeSub(MultiPolygon, c) == Encode(GeoValue(Some(Polygon), c, gs))
  {
  }

  /** Multi* with a missing or non-array `coordinates`, and GeometryCollection
      with a missing or non-array `geometries`: the 9-byte header, count 0. */
  lemma EmptyCollections(g: GeoValue)
    requires g.kind.Some? && g.kind.value in {MultiPoint, MultiLineString, MultiPolygon, GeometryCollection}
    requires g.kind.value == GeometryCollection ==> g.geometries.NoArray?
    requires g.kind.value != GeometryCollection ==> !g.coordinates.Arr?
    ensures Encode(g) == Wkb(Header(g.kind.value) + LE32(0))
    ensures |Encode(g).bytes| == 9
    ensures Encode(g).bytes[5..9] == LE32(0)
  {
  }

  /** The buffers of the first `n` elements, which all encode. */
  function SubBuffers(k: Kind, elems: seq<Value>, n: nat): (r: seq<seq<byte>>)
    requires n <= |elems| && forall i | 0 <= i < n :: EncodeSub(k, elems[i]).Wkb?
    ensures |r| == n
  {
    seq(n, i requires 0 <= i < n => EncodeSub(k, elems[i]).bytes)
  }

  /** Multi*: when the first `n` elements encode and the next, if any, gives
      `null`, the result is the header, the count `n` at offset 5, and those
      `n` encodings in order. */
  lemma MultiTruncation(g: GeoValue, n: nat)
    requires g.kind.Some? && g.kind.value in {MultiPoint, MultiLineString, MultiPolygon}
    requires g.coordinates.Arr? && n <= |g.coordinates.items| && n <= MaxInt32
    requires forall i | 0 <= i < n :: EncodeSub(g.kind.value, g.coordinates.items[i]).Wkb?
    requires n < |g.coordinates.items| ==> EncodeSub(g.kind.value, g.coordinates.items[n]).Null?
    ensures Encode(g) == Wkb(Header(g.kind.value) + LE32(n) + Concat(SubBuffers(g.kind.value, g.coordinates.items, n)))
  {
    var k := g.kind.value;
    var encs := SubEncodings(k, g.coordinates.items);
    TruncateAt(encs, n);
    assert Truncate(encs).bufs == SubBuffers(k, g.coordinates.items, n);
  }

  /** Multi*: when the first element that does not encode throws, so does the
      whole encoding. */
  lemma MultiAborts(g: GeoValue, n: nat)
    requires g.kind.Some? && g.kind.value in {MultiPoint, MultiLineString, MultiPolygon}
    requires g.coordinates.Arr? && n < |g.coordinates.items|
    requires forall i | 0 <= i < n :: EncodeSub(g.kind.value, g.coordinates.items[i]).Wkb?
    requires EncodeSub(g.kind.value, g.coordinates.items[n]).Thrown?
    ensures Encode(g).Thrown?
  {
    var encs := SubEncodings(g.kind.value, g.coordinates.items);
    TruncateAborted(encs);
    assert encs[n].Thrown? && forall j | 0 <= j < n :: encs[j].Wkb?;
  }

  /** The buffers of the first `n` children, which all encode. */
  function ChildBuffers(kids: seq<GeoValue>, n: nat): (r: seq<seq<byte>>)
    requires n <= |kids| && forall i | 0 <= i < n :: Encode(kids[i]).Wkb?
    ensures |r| == n
  {
    seq(n, i requires 0 <= i < n => Encode(kids[i]).bytes)
  }

  /** GeometryCollection: the same truncation rule, each child encoded in
      full with its own header. */
  lemma CollectionTruncation(g: GeoValue, n: nat)
    requires g.kind == Some(GeometryCollection) && g.geometries.Children?
    requires n <= |g.geometries.kids| && n <= MaxInt32
    requires forall i | 0 <= i < n :: Encode(g.geometries.kids[i]).Wkb?
    requires n < |g.geometries.kids| ==> Encode(g.geometries.kids[n]).Null?
    ensures Encode(g) == Wkb(Header(GeometryCollection) + LE32(n) + Concat(ChildBuffers(g.geometries.kids, n)))
  {
    var encs := ChildEncodings(g);
    TruncateAt(encs, n);
    assert Truncate(encs).bufs == ChildBuffers(g.geometries.kids, n);
  }

  /** GeometryCollection: a child that throws before any child gives `null`
      makes the whole encoding throw. */
  lemma CollectionAborts(g: GeoValue, n: nat)
    requires g.kind == Some(GeometryCollection) && g.geometries.Children?
    requires n < |g.geometries.kids|
    requires forall i | 0 <= i < n :: Encode(g.geometries.kids[i]).Wkb?
    requires Encode(g.geometries.kids[n]).Thrown?
    ensures Encode(g).Thrown?
  {
    var encs := ChildEncodings(g);
    TruncateAborted(encs);
    assert encs[n].Thrown? && forall j | 0 <= j < n :: encs[j].Wkb?;
  }

  /** A MultiPoint whose first point is valid and whose second is not encodes
      to the header, count 1, and exactly the first point as a full WKB Point. */
  lemma MultiPointKeepsValidPrefix(g: GeoValue)
    requires g.kind == Some(MultiPoint) && g.coordinates.Arr? && |g.coordinates.items| >= 2
    requires IsPoint(g.coordinates.items[0]) && !IsPoint(g.coordinates.items[1])
    ensures Encode(g) == Wkb(Header(MultiPoint) + LE32(1) + Header(Point) + XY(g.coordinates.items[0]))
  {
    MultiTruncation(g, 1);
    var bufs := SubBuffers(MultiPoint, g.coordinates.items, 1);
    assert Concat(bufs) == bufs[0];
  }
}

=== FILE: js.dfy ===
/** The JavaScript values the codec inspects, reduced to what it observes of them. */
module Js {
  import opened Bytes

  datatype Option<+T> = None | Some(value: T)

  /** The outcome of a call that either returns a value or throws. */
  datatype Result<+T> = Ok(value: T) | Throws

  /** A value that is not an array, as the encoder's numeric checks see it:
      whether `isNaN` holds for it, and the eight bytes `writeDoubleLE` stores
      for it. Both are the JavaScript number coercion, which is not modelled. */
  datatype Scalar = Scalar(nanLike: bool, f64le: Bytes8)

  /** A JavaScript value in a coordinate position: an array, or anything
      else. An array also has a number coercion (`[5]` coerces to 5), which
      `isNaN` and `writeDoubleLE` apply to it like to any other value. */
  datatype Value = Atom(scalar: Scalar) | Arr(items: seq<Value>, asNumber: Scalar)

  /** The number coercion of a value. */
  function Num(v: Value): Scalar
  {
    match v
    case Atom(s) => s
    case Arr(_, s) => s
  }

  /** JavaScript `isNaN`. */
  predicate IsNaN(v: Value)
  {
    Num(v).nanLike
  }
}

=== FILE: params.dfy ===
/** `writeParam`: one parameter of a binary prepared-statement execution,
    written as a one-byte marker (0x00: a value follows, 0x01: NULL) and at
    most one payload. The output writer is an append-only log of the writes
    it receives; each write reports whether it flushed. */
module Params {
  import opened Bytes
  import opened Js
  import opened Geometry
  import GeometryLemmas

  /** A JavaScript Date, as the writer's `writeBinaryDate` receives it. */
  datatype DateValue = DateValue(epochMillis: int)

  /** The writes `writeParam` makes on the output writer. */
  datatype Op =
    | Int8(b: byte)
    | LenAscii(text: string)
    | LenString(text: string)
    | LenBuffer(bytes: seq<byte>)
    | BinaryDate(date: DateValue)

  /** An object parameter, as the branches of `writeParam` observe it: whether
      it is a Date, whether it is a Buffer, what `String(value.toSqlString())`
      gives when it has such a method, how it reads as a geometry, and what
      `JSON.stringify` gives for it. */
  datatype JsObject = JsObject(
    date: Option<DateValue>,
    buffer: Option<seq<byte>>,
    sqlString: Option<string>,
    geometry: GeoValue,
    json: string)

  /** A parameter value by its `typeof`. `Number` carries the text of
      `'' + value`; `Text` is a string or any other primitive, handed to the
      writer as it is. `NullObject` is `null`, whose `typeof` is `'object'`. */
  datatype Param =
    | Boolean(b: bool)
    | Number(text: string)
    | Object(obj: JsObject)
    | NullObject
    | Text(text: string)

  /** Whether a write flushes, given the writes of this parameter before it. */
  type Flush = (seq<Op>, Op) -> bool

  /** The writes made for one parameter, and the flag `writeParam` returns. */
  datatype Written = Written(log: seq<Op>, flushed: bool)

  /** True when some write of `log` reported a flush. */
  predicate AnyFlush(flush: Flush, log: seq<Op>)
  {
    exists i | 0 <= i < |log| :: flush(log[..i], log[i])
  }

  /** The NULL marker alone: `flushed = out.writeInt8(0x01)`. */
  function WriteNull(flush: Flush): (w: Written)
    ensures w.log == [Int8(0x01)]
    ensures w.flushed <==> AnyFlush(flush, w.log)
  {
    var m := Int8(0x01);
    assert [m][..0] == [];
    Written([m], flush([], m))
  }

  /** The value marker and a payload:
      `flushed = out.writeInt8(0x00); flushed = out.write…(…) || flushed`.
      Both writes happen; the flag is the OR of theirs. */
  function WriteValue(flush: Flush, payload: Op): (w: Written)
    ensures w.log == [Int8(0x00), payload]
    ensures w.flushed <==> AnyFlush(flush, w.log)
  {
    var m := Int8(0x00);
    var log := [m, payload];
    assert log[..0] == [] && log[..1] == [m];
    var first := flush([], m);
    var second := flush([m], payload);
    Written(log, second || first)
  }

  /** The object reads as a geometry: its `type` is one of the seven names. */
  predicate IsGeometryObject(o: JsObject)
  {
    o.date.None? && o.buffer.None? && o.sqlString.None? && o.geometry.kind.Some?
  }

  /** Lines 23-78. A thrown exception, from `null` (line 41 reads a property of
      it) or from the geometry encoder, is `Throws`. */
  function WriteParam(value: Param, flush: Flush): (r: Result<Written>)
    ensures r.Ok? ==> |r.value.log| >= 1 && r.value.log[0] in {Int8(0x00), Int8(0x01)}
    ensures r.Ok? ==> (r.value.log[0] == Int8(0x01) <==> r.value.log == [Int8(0x01)])
    ensures r.Ok? && r.value.log[0] == Int8(0x00) ==> |r.value.log| == 2 && (r.value.log[1].Int8? <==> value.Boolean?)
    ensures r.Ok? ==> (r.value.flushed <==> AnyFlush(flush, r.value.log))
    ensures r.Throws? <==>
      value.NullObject? || (value.Object? && IsGeometryObject(value.obj) && Encode(value.obj.geometry).Thrown?)
    ensures r.Ok? && r.value.log[0] == Int8(0x01) <==>
      value.Object? && IsGeometryObject(value.obj) && Encode(value.obj.geometry).Null?
  {
    match value
    case Boolean(b) => Ok(WriteValue(flush, Int8(if b then 0x01 else 0x00)))
    case Number(text) => Ok(WriteValue(flush, LenAscii(text)))
    case NullObject => Throws
    case Object(o) =>
      if o.date.Some? then Ok(WriteValue(flush, BinaryDate(o.date.value)))
      else if o.buffer.Some? then Ok(WriteValue(flush, LenBuffer(o.buffer.value)))
      else if o.sqlString.Some? then Ok(WriteValue(flush, LenString(o.sqlString.value)))
      else if o.geometry.kind.Some? then
        match Encode(o.geometry)
        case Thrown => Throws
        case Null => Ok(WriteNull(flush))
        case Wkb(wkb) => Ok(WriteValue(flush, LenBuffer([0, 0, 0, 0] + wkb)))
      else Ok(WriteValue(flush, LenString(o.json)))
    case Text(text) => Ok(WriteValue(flush, LenString(text)))
  }

  /** Only a Point, LineString or Polygon that does not encode is sent as
      NULL; a Multi* or GeometryCollection object always sends a value. */
  lemma NullMarkerOnlyForSimpleGeometries(value: Param, flush: Flush)
    requires WriteParam(value, flush).Ok? && WriteParam(value, flush).value.log[0] == Int8(0x01)
    ensures value.Object? && value.obj.geometry.kind.Some?
    ensures value.obj.geometry.kind.value in {Point, LineString, Polygon}
  {
    GeometryLemmas.NullOnlyForSimpleKinds(value.obj.geometry);
  }

  /** A geometry that encodes is sent as a length-encoded buffer: four zero
      bytes (the SRID) and then the WKB. */
  lemma GeometryPayload(o: JsObject, flush: Flush)
    requires IsGeometryObject(o) && Encode(o.geometry).Wkb?
    ensures WriteParam(Object(o), flush).Ok?
    ensures var log := WriteParam(Object(o), flush).value.log;
      && log[0] == Int8(0x00) && log[1].LenBuffer?
      && log[1].bytes[..4] == [0, 0, 0, 0]
      && log[1].bytes[4..] == Encode(o.geometry).bytes
  {
  }

  /** The object branches are tried in the order Date, Buffer, `toSqlString`,
      geometry, JSON: each applies exactly when none before it does. */
  lemma ObjectBranchOrder(o: JsObject, flush: Flush)
    ensures o.date.Some? ==> WriteParam(Object(o), flush) == Ok(WriteValue(flush, BinaryDate(o.date.value)))
    ensures o.date.None? && o.buffer.Some? ==>
      WriteParam(Object(o), flush) == Ok(WriteValue(flush, LenBuffer(o.buffer.value)))
    ensures o.date.None? && o.buffer.None? && o.sqlString.Some? ==>
      WriteParam(Object(o), flush) == Ok(WriteValue(flush, LenString(o.sqlString.value)))
    ensures o.date.None? && o.buffer.None? && o.sqlString.None? && o.geometry.kind.None? ==>
      WriteParam(Object(o), flush) == Ok(WriteValue(flush, LenString(o.json)))
  {
  }

  /** A primitive is the value marker and one payload: a boolean as one byte,
      1 for true and 0 for false; a number as the text of `'' + value`, a
      length-encoded ASCII string; any other primitive (the default branch,
      lines 73-75) as a length-encoded string. */
  lemma ScalarPayloads(b: bool, text: string, flush: Flush)
    ensures WriteParam(Boolean(b), flush).value.log == [Int8(0x00), Int8(if b then 0x01 else 0x00)]
    ensures WriteParam(Number(text), flush) == Ok(WriteValue(flush, LenAscii(text)))
    ensures WriteParam(Text(text), flush) == Ok(WriteValue(flush, LenString(text)))
  {
  }

  /** A Point whose coordinates are not a pair of numbers is sent as NULL. */
  lemma BadPointIsNull(o: JsObject, flush: Flush)
    requires IsGeometryObject(o) && o.geometry.kind == Some(Point) && !IsPoint(o.geometry.coordinates)
    ensures WriteParam(Object(o), flush) == Ok(Written([Int8(0x01)], flush([], Int8(0x01))))
  {
  }
}

=== FILE: row_shapes.dfy ===
/** The row builders: `parseRowAsArray`, `parseRowNested` and `parseRowStd`
    decode the cells of one row packet in column order and store them in an
    array, a table-to-column map, or a column-name map. Decoding one cell is
    the getter `_getValue`, which reads the packet from a position and
    returns the cell and the position after it, or throws. */
module RowShapes {
  import opened Bytes
  import opened Js
  import opened Rows

  /** A row packet and the reader's position in it. */
  datatype Packet = Packet(buf: seq<byte>, pos: nat)

  /** `_getValue(index, column, …, packet, nullBuf)`. */
  type Getter = (Packet, nat, Column, Option<seq<byte>>) -> Result<(Cell, Packet)>

  /** `packet.skip(n)`. */
  function Skip(p: Packet, n: nat): Packet
  {
    Packet(p.buf, p.pos + n)
  }

  function Min(a: nat, b: nat): nat
  {
    if a <= b then a else b
  }

  /** `packet.readBuffer(n)`: the next `n` bytes, fewer at the end of the
      packet, and the position `n` further on. */
  function ReadBuffer(p: Packet, n: nat): (r: (seq<byte>, Packet))
    ensures r.1 == Packet(p.buf, p.pos + n)
    ensures p.pos + n <= |p.buf| ==> r.0 == p.buf[p.pos..p.pos + n]
  {
    var from := Min(p.pos, |p.buf|);
    (p.buf[from..Min(p.pos + n, |p.buf|)], Packet(p.buf, p.pos + n))
  }

  /** The cells of columns `i` onwards, each decoded from where the previous
      one stopped; the first getter that throws aborts the row. */
  function Cells(get: Getter, p: Packet, columns: seq<Column>, i: nat, nullBuf: Option<seq<byte>>): (r: Result<(seq<Cell>, Packet)>)
    requires i <= |columns|
    ensures r.Ok? ==> |r.value.0| == |columns| - i
    decreases |columns| - i
  {
    if i == |columns| then Ok(([], p))
    else
      match get(p, i, columns[i], nullBuf)
      case Throws => Throws
      case Ok(cp) => Glue([cp.0], Cells(get, cp.1, columns, i + 1, nullBuf))
  }

  /** Puts `done` in front of the cells decoded after it. */
  function Glue(done: seq<Cell>, r: Result<(seq<Cell>, Packet)>): Result<(seq<Cell>, Packet)>
  {
    match r
    case Throws => Throws
    case Ok(cp) => Ok((done + cp.0, cp.1))
  }

  lemma GlueGlue(done: seq<Cell>, c: Cell, r: Result<(seq<Cell>, Packet)>)
    ensures Glue(done, Glue([c], r)) == Glue(done + [c], r)
  {
    if r.Ok? {
      assert done + ([c] + r.value.0) == (done + [c]) + r.value.0;
    }
  }

  lemma GlueNothing(r: Result<(seq<Cell>, Packet)>)
    ensures Glue([], r) == r
  {
    if r.Ok? {
      assert [] + r.value.0 == r.value.0;
    }
  }

  /** Column `i` is decoded first, from the row's starting position; a throw
      there aborts the row, and otherwise its cell leads the cells decoded
      from where it ended. */
  lemma {:induction false} CellsSpec(get: Getter, p: Packet, columns: seq<Column>, i: nat, nullBuf: Option<seq<byte>>)
    requires i < |columns|
    ensures Cells(get, p, columns, i, nullBuf).Ok? ==>
      && get(p, i, columns[i], nullBuf).Ok?
      && Cells(get, p, columns, i, nullBuf).value.0[0] == get(p, i, columns[i], nullBuf).value.0
      && Cells(get, p, columns, i, nullBuf) == Glue([get(p, i, columns[i], nullBuf).value.0],
           Cells(get, get(p, i, columns[i], nullBuf).value.1, columns, i + 1, nullBuf))
    ensures get(p, i, columns[i], nullBuf).Throws? ==> Cells(get, p, columns, i, nullBuf).Throws?
  {
  }

  /** Every cell is decoded with the same bitmap, the one the row builder
      passes; a getter that ignores the position and always succeeds gives
      cell `j` for column `j`. */
  lemma {:induction false} CellsOfPureGetter(f: (nat, Column, Option<seq<byte>>) -> Cell, p: Packet, columns: seq<Column>, i: nat, nullBuf: Option<seq<byte>>)
    requires i <= |columns|
    ensures var get := (q: Packet, j: nat, c: Column, nb: Option<seq<byte>>) => Ok((f(j, c, nb), q));
      && Cells(get, p, columns, i, nullBuf).Ok?
      && forall j | i <= j < |columns| :: Cells(get, p, columns, i, nullBuf).value.0[j - i] == f(j, columns[j], nullBuf)
    decreases |columns| - i
  {
    var get := (q: Packet, j: nat, c: Column, nb: Option<seq<byte>>) => Ok((f(j, c, nb), q));
    if i < |columns| {
      CellsOfPureGetter(f, p, columns, i + 1, nullBuf);
      var rest := Cells(get, p, columns, i + 1, nullBuf).value.0;
      assert Cells(get, p, columns, i, nullBuf).value.0 == [f(i, columns[i], nullBuf)] + rest;
    }
  }

  // ---------------------------------------------------------------------
  // Flat and nested maps, later columns overwriting earlier ones

  /** `row[names[j]] = cells[j]` for each `j` in order. */
  function Flat(names: seq<string>, cells: seq<Cell>): map<string, Cell>
    requires |names| == |cells|
  {
    if names == [] then map[]
    else Flat(names[..|names| - 1], cells[..|cells| - 1])[names[|names| - 1] := cells[|cells| - 1]]
  }

  /** The keys are exactly the column names. */
  lemma {:induction false} FlatKeys(names: seq<string>, cells: seq<Cell>)
    requires |names| == |cells|
    ensures Flat(names, cells).Keys == set x | x in names
    decreases |names|
  {
    if names != [] {
      var n := |names| - 1;
      FlatKeys(names[..n], cells[..n]);
      assert names == names[..n] + [names[n]];
      assert (set x | x in names) == (set x | x in names[..n]) + {names[n]};
    }
  }

  /** A name holds the cell of the last column with that name. */
  lemma {:induction false} FlatLast(names: seq<string>, cells: seq<Cell>, j: nat)
    requires |names| == |cells| && j < |names|
    requires forall m | j < m < |names| :: names[m] != names[j]
    ensures names[j] in Flat(names, cells) && Flat(names, cells)[names[j]] == cells[j]
    decreases |names|
  {
    var n := |names| - 1;
    if j < n {
      FlatLast(names[..n], cells[..n], j);
    }
  }

  /** `row[t] = row[t] || {}; row[t][c] = cells[j]` for each `(t, c) = header[j]`. */
  function Nested(header: seq<(string, string)>, cells: seq<Cell>): map<string, map<string, Cell>>
    requires |header| == |cells|
  {
    if header == [] then map[]
    else
      var row := Nested(header[..|header| - 1], cells[..|cells| - 1]);
      var (t, c) := header[|header| - 1];
      var table := if t in row then row[t] else map[];
      row[t := table[c := cells[|cells| - 1]]]
  }

  /** The tables are exactly the header's table names. */
  lemma {:induction false} NestedTables(header: seq<(string, string)>, cells: seq<Cell>)
    requires |header| == |cells|
    ensures Nested(header, cells).Keys == set h | h in header :: h.0
    decreases |header|
  {
    if header != [] {
      var n := |header| - 1;
      NestedTables(header[..n], cells[..n]);
      assert header == header[..n] + [header[n]];
      assert (set h | h in header :: h.0) == (set h | h in header[..n] :: h.0) + {header[n].0};
    }
  }

  /** Each table holds exactly the column names the header gives it. */
  lemma {:induction false} NestedColumns(header: seq<(string, string)>, cells: seq<Cell>, t: string)
    requires |header| == |cells| && t in Nested(header, cells)
    ensures Nested(header, cells)[t].Keys == set h | h in header && h.0 == t :: h.1
    decreases |header|
  {
    var n := |header| - 1;
    var prefix := header[..n];
    var row := Nested(prefix, cells[..n]);
    assert header == prefix + [header[n]];
    if t in row {
      NestedColumns(prefix, cells[..n], t);
    } else {
      NestedTables(prefix, cells[..n]);
      assert (set h | h in prefix && h.0 == t :: h.1) == {};
    }
    if header[n].0 == t {
      assert (set h | h in header && h.0 == t :: h.1) == (set h | h in prefix && h.0 == t :: h.1) + {header[n].1};
    } else {
      assert (set h | h in header && h.0 == t :: h.1) == (set h | h in prefix && h.0 == t :: h.1);
    }
  }

  /** A table and column pair holds the cell of its last column. */
  lemma {:induction false} NestedLast(header: seq<(string, string)>, cells: seq<Cell>, j: nat)
    requires |header| == |cells| && j < |header|
    requires forall m | j < m < |header| :: header[m] != header[j]
    ensures header[j].0 in Nested(header, cells)
    ensures header[j].1 in Nested(header, cells)[header[j].0]
    ensures Nested(header, cells)[header[j].0][header[j].1] == cells[j]
    decreases |header|
  {
    var n := |header| - 1;
    if j < n {
      NestedLast(header[..n], cells[..n], j);
    }
  }

  /** One more column of the nested row: its table is created when missing,
      and the cell is stored under the column name. */
  lemma NestedStep(header: seq<(string, string)>, done: seq<Cell>, c: Cell, i: nat)
    requires i < |header| && |done| == i
    ensures var row := Nested(header[..i], done);
      var table := if header[i].0 in row then row[header[i].0] else map[];
      Nested(header[..i + 1], done + [c]) == row[header[i].0 := table[header[i].1 := c]]
  {
    assert header[..i + 1][..i] == header[..i];
    assert (done + [c])[..i] == done;
  }

  // ---------------------------------------------------------------------
  // The row builders

  /** Lines 327-333: one cell per column, in order. No bitmap is passed. */
  method ParseRowAsArray(columns: seq<Column>, packet: Packet, get: Getter) returns (r: Result<seq<Cell>>)
    ensures r.Ok? <==> Cells(get, packet, columns, 0, None).Ok?
    ensures r.Ok? ==> r.value == Cells(get, packet, columns, 0, None).value.0
  {
    var row: seq<Cell> := [];
    var p := packet;
    var i := 0;
    GlueNothing(Cells(get, p, columns, 0, None));
    while i < |columns|
      invariant 0 <= i <= |columns|
      invariant Cells(get, packet, columns, 0, None) == Glue(row, Cells(get, p, columns, i, None))
    {
      var cell := get(p, i, columns[i], None);
      if cell.Throws? {
        return Throws;
      }
      GlueGlue(row, cell.value.0, Cells(get, cell.value.1, columns, i + 1, None));
      row := row + [cell.value.0];
      p := cell.value.1;
      i := i + 1;
    }
    assert row + [] == row;
    return Ok(row);
  }

  /** Lines 335-348: each cell stored under its table and column name; a
      table's map is created on its first column. No bitmap is passed. */
  method ParseRowNested(columns: seq<Column>, header: seq<(string, string)>, packet: Packet, get: Getter)
    returns (r: Result<map<string, map<string, Cell>>>)
    requires |header| == |columns|
    ensures r.Ok? <==> Cells(get, packet, columns, 0, None).Ok?
    ensures r.Ok? ==> r.value == Nested(header, Cells(get, packet, columns, 0, None).value.0)
  {
    var row: map<string, map<string, Cell>> := map[];
    ghost var done: seq<Cell> := [];
    var p := packet;
    var i := 0;
    GlueNothing(Cells(get, p, columns, 0, None));
    while i < |columns|
      invariant 0 <= i <= |columns| && |done| == i
      invariant Cells(get, packet, columns, 0, None) == Glue(done, Cells(get, p, columns, i, None))
      invariant row == Nested(header[..i], done)
    {
      var cell := get(p, i, columns[i], None);
      if cell.Throws? {
        return Throws;
      }
      var (t, c) := header[i];
      var table := if t in row then row[t] else map[];
      NestedStep(header, done, cell.value.0, i);
      row := row[t := table[c := cell.value.0]];
      GlueGlue(done, cell.value.0, Cells(get, cell.value.1, columns, i + 1, None));
      done := done + [cell.value.0];
      p := cell.value.1;
      i := i + 1;
    }
    assert done + [] == done;
    assert header[..i] == header;
    return Ok(row);
  }

  /** Lines 350-365: the 0x00 header byte skipped, the bitmap of
      `floor((n + 7 + 2) / 8)` bytes read, then each cell decoded with that
      bitmap and stored under its column name. */
  method ParseRowStd(columns: seq<Column>, names: seq<string>, packet: Packet, get: Getter)
    returns (r: Result<map<string, Cell>>, nullBuf: seq<byte>, start: Packet)
    requires |names| == |columns|
    ensures start == Packet(packet.buf, packet.pos + 1 + BitmapSize(|columns|))
    ensures packet.pos + 1 + BitmapSize(|columns|) <= |packet.buf| ==>
      nullBuf == packet.buf[packet.pos + 1..packet.pos + 1 + BitmapSize(|columns|)]
    ensures r.Ok? <==> Cells(get, start, columns, 0, Some(nullBuf)).Ok?
    ensures r.Ok? ==> r.value == Flat(names, Cells(get, start, columns, 0, Some(nullBuf)).value.0)
  {
    var p := Skip(packet, 1);
    var read := ReadBuffer(p, BitmapSize(|columns|));
    nullBuf, p := read.0, read.1;
    start := p;
    var row: map<string, Cell> := map[];
    ghost var done: seq<Cell> := [];
    var i := 0;
    GlueNothing(Cells(get, p, columns, 0, Some(nullBuf)));
    while i < |columns|
      invariant 0 <= i <= |columns| && |done| == i
      invariant Cells(get, start, columns, 0, Some(nullBuf)) == Glue(done, Cells(get, p, columns, i, Some(nullBuf)))
      invariant row == Flat(names[..i], done)
    {
      var cell := get(p, i, columns[i], Some(nullBuf));
      if cell.Throws? {
        return Throws, nullBuf, start;
      }
      row := row[names[i] := cell.value.0];
      GlueGlue(done, cell.value.0, Cells(get, cell.value.1, columns, i + 1, Some(nullBuf)));
      assert names[..i + 1][..i] == names[..i];
      assert (done + [cell.value.0])[..i] == done;
      done := done + [cell.value.0];
      p := cell.value.1;
      i := i + 1;
    }
    assert done + [] == done;
    assert names[..i] == names;
    return Ok(row), nullBuf, start;
  }

  /** Line 324: the text-protocol row parser is not implemented here and
      throws. */
  function ParseRow(columns: seq<Column>, packet: Packet): (r: Result<seq<Cell>>)
    ensures !r.Ok?
  {
    Throws
  }
}

=== FILE: rows.dfy ===
/** Decoding a binary result-set row: the null-bitmap test, the per-column
    dispatch of `readRowData` on the column type, and the three row shapes
    built from the decoded cells. The packet reader's typed reads are opaque:
    a decoded cell records which read produced it. */
module Rows {
  import opened Bytes
  import opened Js

  /** Column type codes of the MySQL/MariaDB client/server protocol. */
  const DECIMAL: nat := 0
  const TINY: nat := 1
  const SHORT: nat := 2
  const LONG: nat := 3
  const FLOAT: nat := 4
  const DOUBLE: nat := 5
  const TIMESTAMP: nat := 7
  const LONGLONG: nat := 8
  const INT24: nat := 9
  const DATE: nat := 10
  const TIME: nat := 11
  const DATETIME: nat := 12
  const YEAR: nat := 13
  const JSON: nat := 245
  const NEWDECIMAL: nat := 246
  const GEOMETRY: nat := 255

  /** Column definition flags: unsigned integer, and SET column. */
  const UNSIGNED: bv16 := 32
  const SET: bv16 := 2048

  /** The collation index of binary strings. */
  const BinaryCollation: nat := 63

  /** Column metadata as `readRowData` consults it. */
  datatype Column = Column(columnType: nat, flags: bv16, collationIndex: nat)

  /** The query options passed to the decimal reader. */
  datatype Opts = Opts(supportBigNumbers: bool, bigNumberStrings: bool)

  /** The typed reads of the packet reader. */
  datatype Read =
    | ReadDouble
    | ReadFloat
    | ReadInt(bits: nat, unsigned: bool)
    | ReadDecimal(supportBigNumbers: bool, bigNumberStrings: bool)
    | ReadBinaryDate
    | ReadBinaryTime
    | ReadGeometry
    | ReadJson
    | ReadBytes
    | ReadText

  /** A decoded cell: null, the value a typed read returned, a string, or the
      members of a SET. */
  datatype Cell = NullCell | Typed(read: Read) | Str(s: string) | Members(items: seq<string>)

  /** A cell and the packet reads made to decode it. */
  datatype Decoded = Decoded(cell: Cell, consumed: seq<Read>)

  // ---------------------------------------------------------------------
  // The null bitmap

  /** Bit `n` of `b`, counting from the least significant. */
  predicate Bit(b: nat, n: nat)
  {
    if n == 0 then b % 2 == 1 else Bit(b / 2, n - 1)
  }

  /** `buf[key]` for a JavaScript number `key`: the byte when the key is an
      integer index inside the buffer, `undefined` (None) otherwise. */
  function Lookup(buf: seq<byte>, key: real): (r: Option<byte>)
    ensures forall k: nat | k < |buf| && key == k as real :: r == Some(buf[k])
    ensures r.Some? ==> exists k: nat | k < |buf| :: key == k as real && r.value == buf[k]
  {
    if key == key.Floor as real && 0 <= key.Floor < |buf| then Some(buf[key.Floor]) else None
  }

  /** Line 386 as written: `nullBuf[1 + (index + 2) / 8] & (1 << (index + 2) % 8)`,
      with JavaScript's real division and `undefined & m == 0`. */
  predicate NullBitAsWritten(nullBuf: seq<byte>, index: nat)
  {
    match Lookup(nullBuf, 1.0 + (index + 2) as real / 8.0)
    case None => false
    case Some(b) => Bit(b, (index + 2) % 8)
  }

  /** The test as written reports null only for every eighth column, from
      index 6 on, and then only on bit 0 of the byte after the one the
      protocol designates. */
  lemma NullBitAsWrittenShape(nullBuf: seq<byte>, index: nat)
    ensures NullBitAsWritten(nullBuf, index) <==>
      (index + 2) % 8 == 0 && 1 + (index + 2) / 8 < |nullBuf| && nullBuf[1 + (index + 2) / 8] % 2 == 1
  {
    var q, m := (index + 2) / 8, (index + 2) % 8;
    var key := 1.0 + (index + 2) as real / 8.0;
    assert (index + 2) as real == 8.0 * q as real + m as real;
    assert key == (1 + q) as real + m as real / 8.0;
    if m == 0 {
      assert key == (1 + q) as real;
      assert key.Floor == 1 + q;
    } else {
      assert (1 + q) as real < key < (2 + q) as real;
      assert key.Floor == 1 + q;
      assert key != key.Floor as real;
    }
  }

  /** The bitmap size `parseRowStd` reads for `n` columns:
      `Math.floor((n + 7 + 2) / 8)` bytes, the fewest that hold the two
      reserved bits and one bit per column. */
  function BitmapSize(n: nat): (r: nat)
    ensures 8 * r >= n + 2
    ensures 8 * (r - 1) < n + 2
  {
    (n + 7 + 2) / 8
  }

  /** The null test of the binary row protocol, on the bitmap that follows the
      packet header: bit `(index + 2) % 8` of byte `(index + 2) / 8`. */
  predicate NullBit(nullBuf: seq<byte>, index: nat)
  {
    (index + 2) / 8 < |nullBuf| && Bit(nullBuf[(index + 2) / 8], (index + 2) % 8)
  }

  /** Every column of an `n`-column row has its bit inside the bitmap. */
  lemma BitmapCoversColumns(n: nat, index: nat)
    requires index < n
    ensures (index + 2) / 8 < BitmapSize(n)
  {
  }

  /** Packs up to eight flags into a byte, the first flag in bit 0. */
  function PackBits(bits: seq<bool>): (r: nat)
    requires |bits| <= 8
    ensures r < Pow2(|bits|)
  {
    if bits == [] then 0 else (if bits[0] then 1 else 0) + 2 * PackBits(bits[1..])
  }

  function Pow2(n: nat): (r: nat)
    ensures r >= 1
  {
    if n == 0 then 1 else 2 * Pow2(n - 1)
  }

  lemma {:induction false} PackBitsBit(bits: seq<bool>, k: nat)
    requires |bits| <= 8 && k < |bits|
    ensures Bit(PackBits(bits), k) <==> bits[k]
    decreases k
  {
    var rest := PackBits(bits[1..]);
    var low := if bits[0] then 1 else 0;
    assert (low + 2 * rest) / 2 == rest;
    if k > 0 {
      PackBitsBit(bits[1..], k - 1);
    }
  }

  /** The bitmap the server sends for an `n`-column row whose null columns are
      `nulls`: column `i` at bit `(i + 2) % 8` of byte `(i + 2) / 8`. */
  function NullBitmap(n: nat, nulls: set<nat>): (b: seq<byte>)
    ensures |b| == BitmapSize(n)
  {
    seq(BitmapSize(n), j requires 0 <= j => BitmapByte(j, nulls))
  }

  /** The flags of byte `j`: bit `k` stands for column `8 * j + k - 2`. */
  function BitmapBits(j: nat, nulls: set<nat>): (bits: seq<bool>)
    ensures |bits| == 8
    ensures forall k | 0 <= k < 8 :: bits[k] <==> 8 * j + k >= 2 && 8 * j + k - 2 in nulls
  {
    seq(8, k => 8 * j + k >= 2 && 8 * j + k - 2 in nulls)
  }

  function BitmapByte(j: nat, nulls: set<nat>): byte
  {
    assert Pow2(8) == 256;
    PackBits(BitmapBits(j, nulls))
  }

  /** The protocol test reads back exactly the null columns the bitmap was
      built from. */
  lemma NullBitmapRoundTrip(n: nat, nulls: set<nat>, index: nat)
    requires index < n
    ensures NullBit(NullBitmap(n, nulls), index) <==> index in nulls
  {
    var j, k := (index + 2) / 8, (index + 2) % 8;
    assert 8 * j + k - 2 == index;
    PackBitsBit(BitmapBits(j, nulls), k);
  }

  /** The test as written misses a null first column: the server's bitmap for
      one column that is NULL reads as not null. */
  lemma AsWrittenMissesNullColumn()
    ensures NullBitmap(1, {0}) == [4]
    ensures NullBit([4], 0)
    ensures !NullBitAsWritten([4], 0)
  {
    var bits := BitmapBits(0, {0});
    var zeros := [false, false, false, false, false];
    assert bits == [false, false, true] + zeros;
    assert PackBits(zeros) == 0 by {
      assert PackBits(zeros[4..]) == 0;
      assert PackBits(zeros[3..]) == 0;
      assert PackBits(zeros[2..]) == 0;
      assert PackBits(zeros[1..]) == 0;
    }
    assert PackBits([true] + zeros) == 1 by { assert ([true] + zeros)[1..] == zeros; }
    assert PackBits([false, true] + zeros) == 2 by { assert ([false, true] + zeros)[1..] == [true] + zeros; }
    assert PackBits(bits) == 4 by { assert bits[1..] == [false, true] + zeros; }
    assert BitmapByte(0, {0}) == 4;
    assert BitmapSize(1) == 1;
    assert NullBitmap(1, {0})[0] == BitmapByte(0, {0});
    NullBitAsWrittenShape([4], 0);
  }

  // ---------------------------------------------------------------------
  // The SET column text

  /** `s.split(',')`. */
  function Split(s: string): (r: seq<string>)
    ensures |r| >= 1
    ensures forall i | 0 <= i < |r| :: ',' !in r[i]
  {
    if s == [] then [""]
    else
      var rest := Split(s[1..]);
      if s[0] == ',' then [""] + rest
      else [[s[0]] + rest[0]] + rest[1..]
  }

  /** `parts.join(',')`. */
  function Join(parts: seq<string>): string
  {
    if parts == [] then ""
    else if |parts| == 1 then parts[0]
    else parts[0] + "," + Join(parts[1..])
  }

  lemma {:induction false} JoinSplit(s: string)
    ensures Join(Split(s)) == s
    decreases |s|
  {
    if s != [] {
      JoinSplit(s[1..]);
      var rest := Split(s[1..]);
      if s[0] == ',' {
        assert Join([""] + rest) == "" + "," + Join(rest);
        assert s == [','] + s[1..];
      } else {
        var head := [s[0]] + rest[0];
        if |rest| == 1 {
          assert Join([head]) == head;
        } else {
          assert ([head] + rest[1..])[1..] == rest[1..];
          assert Join(rest) == rest[0] + "," + Join(rest[1..]);
        }
        assert s == [s[0]] + s[1..];
      }
    }
  }

  lemma {:induction false} SplitJoin(parts: seq<string>)
    requires |parts| >= 1 && forall i | 0 <= i < |parts| :: ',' !in parts[i]
    ensures Split(Join(parts)) == parts
    decreases |parts|, |parts[0]|
  {
    if |parts| == 1 {
      SplitNoComma(parts[0]);
    } else if parts[0] == "" {
      SplitJoin(parts[1..]);
      assert Join(parts) == [','] + Join(parts[1..]);
      assert parts == [""] + parts[1..];
    } else {
      var p0 := parts[0];
      var shorter := [p0[1..]] + parts[1..];
      assert forall i | 1 <= i < |shorter| :: shorter[i] == parts[i];
      assert ',' !in shorter[0] by { assert forall c | c in p0[1..] :: c in p0; }
      SplitJoin(shorter);
      assert shorter[1..] == parts[1..];
      assert Join(parts) == [p0[0]] + Join(shorter);
      assert p0 == [p0[0]] + p0[1..];
    }
  }

  lemma {:induction false} SplitNoComma(s: string)
    requires ',' !in s
    ensures Split(s) == [s]
    decreases |s|
  {
    if s != [] {
      assert ',' !in s[1..] by { assert forall c | c in s[1..] :: c in s; }
      SplitNoComma(s[1..]);
      assert s == [s[0]] + s[1..];
    }
  }

  /** Line 429: a SET value's members; the empty string has none. */
  function SetMembers(s: string): seq<string>
  {
    if s == "" then [] else Split(s)
  }

  /** The members of a SET give back its text when joined with commas, and
      members without commas are recovered from their joined text. */
  lemma SetMembersRoundTrip(s: string, parts: seq<string>)
    ensures Join(SetMembers(s)) == s
    ensures parts != [""] && (forall i | 0 <= i < |parts| :: ',' !in parts[i]) ==> SetMembers(Join(parts)) == parts
  {
    JoinSplit(s);
    if parts != [""] && (forall i | 0 <= i < |parts| :: ',' !in parts[i]) {
      if |parts| >= 1 {
        SplitJoin(parts);
        if |parts| > 1 {
          assert |Join(parts)| > 0 by { assert Join(parts) == parts[0] + "," + Join(parts[1..]); }
        }
      }
    }
  }

  // ---------------------------------------------------------------------
  // One cell

  /** True for the column types with a case of their own at lines 390-420. */
  predicate HasOwnCase(t: nat)
  {
    t in {DOUBLE, LONGLONG, INT24, LONG, SHORT, YEAR, TINY, FLOAT, DECIMAL, NEWDECIMAL,
          DATE, DATETIME, TIMESTAMP, TIME, GEOMETRY, JSON}
  }

  function IntRead(bits: nat, column: Column): Decoded
  {
    var r := ReadInt(bits, column.flags & UNSIGNED != 0);
    Decoded(Typed(r), [r])
  }

  /** Lines 389-433: the read for a non-null cell, chosen by the column type.
      `text` is what `readStringLength` returns in the default case. */
  function ReadColumn(column: Column, opts: Opts, text: Option<string>): (d: Decoded)
    ensures |d.consumed| == 1
    ensures d.cell.Typed? ==> d.consumed == [d.cell.read]
    ensures !d.cell.Typed? <==> !HasOwnCase(column.columnType) && column.collationIndex != BinaryCollation
  {
    var t := column.columnType;
    if t == DOUBLE then Decoded(Typed(ReadDouble), [ReadDouble])
    else if t == LONGLONG then IntRead(64, column)
    else if t == INT24 || t == LONG then IntRead(32, column)
    else if t == SHORT || t == YEAR then IntRead(16, column)
    else if t == TINY then IntRead(8, column)
    else if t == FLOAT then Decoded(Typed(ReadFloat), [ReadFloat])
    else if t == DECIMAL || t == NEWDECIMAL then
      var r := ReadDecimal(opts.supportBigNumbers, opts.bigNumberStrings);
      Decoded(Typed(r), [r])
    else if t == DATE || t == DATETIME || t == TIMESTAMP then Decoded(Typed(ReadBinaryDate), [ReadBinaryDate])
    else if t == TIME then Decoded(Typed(ReadBinaryTime), [ReadBinaryTime])
    else if t == GEOMETRY then Decoded(Typed(ReadGeometry), [ReadGeometry])
    else if t == JSON then Decoded(Typed(ReadJson), [ReadJson])
    else if column.collationIndex == BinaryCollation then Decoded(Typed(ReadBytes), [ReadBytes])
    else
      var cell :=
        if text.None? then NullCell
        else if column.flags & SET != 0 then Members(SetMembers(text.value))
        else Str(text.value);
      Decoded(cell, [ReadText])
  }

  /** Lines 385-435. The bitmap is indexed directly, so a missing one throws. */
  function ReadRowData(index: nat, column: Column, opts: Opts, nullBuf: Option<seq<byte>>, text: Option<string>): (r: Result<Decoded>)
    ensures r.Throws? <==> nullBuf.None?
    ensures r.Ok? ==> (r.value.consumed == [] <==> NullBitAsWritten(nullBuf.value, index))
    ensures r.Ok? && r.value.consumed == [] ==> r.value.cell.NullCell?
    ensures r.Ok? && r.value.consumed != [] ==> |r.value.consumed| == 1
  {
    if nullBuf.None? then Throws
    else if NullBitAsWritten(nullBuf.value, index) then Ok(Decoded(NullCell, []))
    else Ok(ReadColumn(column, opts, text))
  }

  /** `readRowData` with the protocol's null test: a null column is decoded
      without reading the packet. */
  function ReadRowDataCorrected(index: nat, column: Column, opts: Opts, nullBuf: Option<seq<byte>>, text: Option<string>): (r: Result<Decoded>)
    ensures r.Throws? <==> nullBuf.None?
    ensures r.Ok? ==> (r.value.consumed == [] <==> NullBit(nullBuf.value, index))
    ensures r.Ok? && r.value.consumed == [] ==> r.value.cell.NullCell?
  {
    if nullBuf.None? then Throws
    else if NullBit(nullBuf.value, index) then Ok(Decoded(NullCell, []))
    else Ok(ReadColumn(column, opts, text))
  }

  /** With the server's bitmap, the corrected reader returns null for exactly
      the null columns and reads nothing for them. */
  lemma CorrectedReadsNullColumns(n: nat, nulls: set<nat>, index: nat, column: Column, opts: Opts, text: Option<string>)
    requires index < n
    ensures var r := ReadRowDataCorrected(index, column, opts, Some(NullBitmap(n, nulls)), text);
      r.Ok? && (index in nulls <==> r.value.consumed == []) && (index in nulls ==> r.value.cell.NullCell?)
  {
    NullBitmapRoundTrip(n, nulls, index);
  }

  /** The integer types read their own width; the UNSIGNED flag alone picks
      the unsigned reader, whatever the other flags. */
  lemma IntegerReads(column: Column, opts: Opts, text: Option<string>)
    ensures var u := column.flags & UNSIGNED != 0;
      var consumed := ReadColumn(column, opts, text).consumed;
      && (column.columnType == LONGLONG ==> consumed == [ReadInt(64, u)])
      && (column.columnType in {INT24, LONG} ==> consumed == [ReadInt(32, u)])
      && (column.columnType in {SHORT, YEAR} ==> consumed == [ReadInt(16, u)])
      && (column.columnType == TINY ==> consumed == [ReadInt(8, u)])
  {
  }

  /** The reads of the other column types, lines 390-422: one fixed read per
      type, the decimal read taking the two number options of the query, and a
      text read for a type without its own case and without binary collation. */
  lemma OtherReads(column: Column, opts: Opts, text: Option<string>)
    ensures var d := ReadColumn(column, opts, text);
      && (column.columnType == DOUBLE ==> d == Decoded(Typed(ReadDouble), [ReadDouble]))
      && (column.columnType == FLOAT ==> d == Decoded(Typed(ReadFloat), [ReadFloat]))
      && (column.columnType in {DECIMAL, NEWDECIMAL} ==>
            d.consumed == [ReadDecimal(opts.supportBigNumbers, opts.bigNumberStrings)] && d.cell == Typed(d.consumed[0]))
      && (column.columnType in {DATE, DATETIME, TIMESTAMP} ==> d == Decoded(Typed(ReadBinaryDate), [ReadBinaryDate]))
      && (column.columnType == TIME ==> d == Decoded(Typed(ReadBinaryTime), [ReadBinaryTime]))
      && (column.columnType == GEOMETRY ==> d == Decoded(Typed(ReadGeometry), [ReadGeometry]))
      && (column.columnType == JSON ==> d == Decoded(Typed(ReadJson), [ReadJson]))
      && (!HasOwnCase(column.columnType) && column.collationIndex != BinaryCollation ==> d.consumed == [ReadText])
  {
  }

  /** In the default case the binary collation returns the raw bytes; the SET
      flag is not consulted. */
  lemma BinaryCollationIgnoresSet(column: Column, opts: Opts, text: Option<string>)
    requires !HasOwnCase(column.columnType) && column.collationIndex == BinaryCollation
    ensures ReadColumn(column, opts, text) == Decoded(Typed(ReadBytes), [ReadBytes])
    ensures ReadColumn(column, opts, text) == ReadColumn(Column(column.columnType, column.flags ^ SET, BinaryCollation), opts, text)
  {
  }

  /** A SET column: null text is null, and otherwise the members joined with
      commas give back the text. */
  lemma SetColumn(column: Column, opts: Opts, text: Option<string>)
    requires !HasOwnCase(column.columnType) && column.collationIndex != BinaryCollation
    requires column.flags & SET != 0
    ensures ReadColumn(column, opts, text).cell.NullCell? <==> text.None?
    ensures text.Some? ==>
      && ReadColumn(column, opts, text).cell.Members?
      && Join(ReadColumn(column, opts, text).cell.items) == text.value
    ensures text == Some("") ==> ReadColumn(column, opts, text).cell == Members([])
  {
    if text.Some? {
      SetMembersRoundTrip(text.value, []);
    }
  }

  /** The bound call `readCastValue` hands to the `typeCast` hook. */
  datatype Thunk = Thunk(index: nat, column: Column, opts: Opts, nullBuf: Option<seq<byte>>, text: Option<string>)

  function Force(t: Thunk): Result<Decoded>
  {
    ReadRowData(t.index, t.column, t.opts, t.nullBuf, t.text)
  }

  /** Lines 367-373: the value is whatever the hook returns for the column and
      the bound reader. */
  function ReadCastValue<T>(typeCast: (Column, Thunk) -> T, index: nat, column: Column, opts: Opts,
                            nullBuf: Option<seq<byte>>, text: Option<string>): T
  {
    typeCast(column, Thunk(index, column, opts, nullBuf, text))
  }

  /** A hook that forces the reader gives exactly `readRowData`. */
  lemma ReadCastForwarding(index: nat, column: Column, opts: Opts, nullBuf: Option<seq<byte>>, text: Option<string>)
    ensures ReadCastValue((c: Column, t: Thunk) => Force(t), index, column, opts, nullBuf, text)
         == ReadRowData(index, column, opts, nullBuf, text)
  {
  }
}
